=== FILE: README.md ===
# constants-enums-generator-ts in Dafny

This project models the core of a code generator for Dataverse (Dynamics 365) entity metadata. The generator reads a list of entity records and writes two TypeScript files for each entity:

- `constants/<Entity>.ts` holds a `Field` union type of the attribute logical names, plus one string constant per attribute.
- `enums/<Entity>.ts` holds a `const enum` for every Picklist, State and Status attribute that has options, and a class of `static readonly` flags for every Boolean attribute that has options.

The entity name, the Picklist enum names, the Boolean class names, the enum member names and the flag names go through `normalizeLabel`. It turns a free-form display label into a TypeScript identifier using eleven regular-expression rewrites. When the label is empty, or when nothing of it survives, it uses a fallback identifier instead. The other names are fixed or taken as given: a constant is named by the attribute's variable name, the union type is always `Field`, and State and Status enums are always `StateCode` and `StatusCode`.

The model is a set of pure functions over immutable values:

- `Metadata`: the metadata records and the 21 attribute type tags.
- `LabelRewrite`: the eleven rewrites, one function per `replace` call. Each one scans its input the way the regular-expression engine does.
- `Normalizer`: `normalizeLabel` with its fallback checks. A thrown error becomes a `Failure`.
- `JsDoc`: whether a declaration gets a documentation comment, and its text.
- `Declarations`: the declarations the generator adds. They are plain values, in place of the syntax-tree nodes the TypeScript code builds.
- `Planner`: `generateEnums` and `generateEnum`.
- `Constants`: `generateConstants`, plus a reader for the generated `Field` type.
- `Generator`: the entity name and the two output paths of `generateForEntity`.
- `Seqs`: running an operation that may throw over a list, where the first error aborts.
- `RewriteLaws`: algebraic laws of the rewrites, used to compute them on concrete labels.
- `Cases`: example labels with their computed identifiers. Two of them are the ones the source comments mention (`[DEPRECATED]` and `Foo 5,10,20 Bar`); the others illustrate one behaviour each from the list below.

Character classes follow JavaScript regular expressions without the `u` flag:

- `\w` is `[A-Za-z0-9_]`.
- `\s` is the full WhiteSpace and LineTerminator set.
- `.` stops at `\n`, `\r`, U+2028 and U+2029.

The fallback test is `^[a-zA-Z_$][0-9a-zA-Z_$]*$`.

The code's behaviour differs from what a reader of its comments and naming might expect in these places (line numbers refer to src/index.ts):

- A label starting with a number keeps the underscore that line 183 inserts after the number: `123 Test` becomes `_123_Test` (`Cases.NumberFirst`).
- A trailing run of signs is spelled out one sign at a time, because the lazy `-+?` matches a single sign: `A--` becomes `AMinusMinus` (`Cases.TrailingSigns`).
- A Boolean whose display name starts with a question word keeps the whole normalized name, question word included: `Is Preferred` gives the class `IsPreferred` (`Cases.QuestionBoolean`). Any other Boolean whose normalized class name does not start with `_` gets an `Is` prefix: `Active` gives `IsActive`, but `123 Test` gives `_123_Test` (`Cases.UnderscoreClassName`).
- A Boolean class gets one property per option, not a fixed pair.
- The class name is normalized before the attribute type is looked at. An attribute with options and an illegal logical name therefore aborts the run even when its type produces nothing (`Planner.OtherTypesSkipped`).
- A negative option value of a Picklist, State or Status attribute gives the member fallback `_-1`, which fails the identifier test. Such an option aborts the run even when it has a label (`Cases.NegativeOption`). A Boolean option with a negative value takes the fallback `No` and never fails.
- An entity without attributes gets the `Field` type `""`. That is the same text as an entity with one attribute whose logical name is empty (`Constants.EmptyFieldType`).

## Model

`LabelRewrite.Rewrite` (src/index.ts:174-185) has no row of its own: the `LabelRewrite` rows for the single passes, `RewriteStart` and `RewriteFixesWords` state its behaviour. Neither do `Planner.Dispatch` (src/index.ts:83-129) and `Planner.EnumName` (src/index.ts:84-94): the rows for `PlanAttribute`, `PlanAttributeFails`, `PlanAttributeProduces`, `EnumDeclarationName` and `BooleanDeclarationName` state theirs.

| member | source | states |
|---|---|---|
| Metadata.FromCode | src/model/metadata.ts:1-23 | A numeric code names a tag exactly when it lies in 0..20, and the tag read back has that code |
| Metadata.CodeRoundTrip | src/model/metadata.ts:1-23 | Every one of the 21 tags has a code below 21, and reading the code back gives the same tag |
| NumberText.ValueFallback | src/index.ts:150 | The member fallback `"_" + value` starts with `_` and is a legal identifier exactly when the value is not negative |
| NumberText.ValueFallbackInjective | src/index.ts:150 | Distinct option values get distinct fallback names |
| Chars.UnderscorePrefix | src/index.ts:191-193 | An underscore followed by word characters is a legal identifier |
| LabelRewrite.ExpandBrackets | src/index.ts:175 | Keeps positions; each character stays or is a bracket turned into `_`; text without `[` is unchanged. The laws `ExpandPlain`, `ExpandAtPair` and `ExpandUnmatched` below cover every way the text can start |
| LabelRewrite.ExpandPlain | src/index.ts:175 | A character other than `[` is copied in front of the rewrite of the rest |
| LabelRewrite.ExpandAtPair | src/index.ts:175 | A bracketed span on one line at the start becomes `_inner_`, and the rest is rewritten on its own; the inner text is the shortest non-empty one, so it may start with `]` |
| LabelRewrite.ExpandUnmatched | src/index.ts:175 | A `[` that no `]` closes on its line (a `]` right after it does not count, as `.+?` needs one character) is copied unchanged |
| LabelRewrite.TrimLeadingSymbols | src/index.ts:176 | Drops exactly the longest prefix of non-word characters: the result is a suffix that starts with a word character |
| LabelRewrite.TrimTrailingSymbols | src/index.ts:177 | Drops exactly the longest suffix of characters other than `\w`, `-`, `+`: the result is a prefix ending in a kept character |
| LabelRewrite.RemoveQuotes | src/index.ts:178 | The result has no quote, and text without quotes is unchanged |
| LabelRewrite.RemoveQuotesCons | src/index.ts:178 | One character at a time: a quote is dropped and any other character is kept in front of the rest |
| LabelRewrite.RemoveQuotesAppend | src/index.ts:178 | Quote removal distributes over concatenation; with the rule for one character, the result is exactly the characters other than quotes, in order |
| LabelRewrite.SpellTrailingSign | src/index.ts:179-180 | A sign remains only where a word character follows on its line; text without the sign is unchanged |
| LabelRewrite.BlankSymbols | src/index.ts:181 | Keeps length; every character that is neither `\w` nor `\s` becomes a space |
| LabelRewrite.CapitalizeWords | src/index.ts:182 | Keeps length; exactly the characters that start a word are upper-cased |
| LabelRewrite.JoinAfterNumbers | src/index.ts:183 | Text without whitespace is unchanged, and the first character is kept. The laws `JoinAfterPlain`, `JoinAfterMatch`, `JoinAfterNoGap` and `JoinAfterNoWord` below cover every way the text can start |
| LabelRewrite.JoinBeforeNumbers | src/index.ts:184 | Text without whitespace is unchanged; a first character that is not whitespace after a word is kept. The laws `JoinBeforePlain`, `JoinBeforeMatch` and `JoinBeforeNoNumber` below cover every way the text can start |
| LabelRewrite.RemoveSpaces | src/index.ts:185 | The result has no whitespace; word-or-space text gives word characters only; the first non-space character is kept |
| LabelRewrite.JoinAfterNumbersSkeleton | src/index.ts:183 | The rewrite keeps every character other than whitespace and `_`, in order |
| LabelRewrite.JoinBeforeNumbersSkeleton | src/index.ts:184 | The rewrite keeps every character other than whitespace and `_`, in order |
| LabelRewrite.RemoveSpacesSkeleton | src/index.ts:185 | Removing whitespace keeps every character other than whitespace and `_`, in order |
| LabelRewrite.JoinWordsSkeleton | src/index.ts:181-185 | The identifier keeps every character of the capitalized, blanked label other than whitespace and `_`, in order |
| LabelRewrite.RewriteStart | src/index.ts:174-185 | The rewrite is empty exactly when no word character survives the bracket rewrite; otherwise it starts with the first surviving word character, upper-cased |
| LabelRewrite.RewriteFixesWords | src/index.ts:174-185 | Word-character text that does not start with a lower-case letter is left unchanged by all eleven rewrites |
| Normalizer.Finish | src/index.ts:187-200 | An empty rewrite gives the fallback, a rewrite starting with a digit gets a `_` prefix, and any other rewrite is kept; the result is a legal identifier that never starts with a digit when the rewrite is non-empty |
| Normalizer.NormalizeLabel | src/index.ts:160-196 | Fails exactly when the fallback is illegal, with the empty-fallback error first; otherwise gives a legal identifier, and the fallback for a missing or empty label |
| Normalizer.LabelOrFallback | src/index.ts:170-196 | A non-empty label takes the fallback branch exactly when no word character survives the bracket rewrite; otherwise the result is a normalized identifier |
| Normalizer.NormalizedIsFixedPoint | src/index.ts:160-196 | A normalized identifier normalizes to itself under any legal fallback |
| Normalizer.NormalizeIdempotent | src/index.ts:160-196 | Normalizing a result again gives it back, unless it is a fallback that is not itself normalized |
| JsDoc.DocFor | src/index.ts:202-223 | No comment exactly when there is no display name and the logical name equals the variable name; otherwise the header first, followed by more text exactly when the description is non-empty |
| JsDoc.DocLines | src/index.ts:207-222 | Splitting the comment at its first line break gives back the header and the description, the latter present exactly when non-empty |
| Seqs.MapAll | src/index.ts:148-157 | A loop whose body may throw succeeds exactly when every element succeeds, with the results in order; otherwise it fails with the first element's error |
| Seqs.MapAllAppend | src/index.ts:73-130 | Running over two lists in a row is running over the first, then over the second only if the first succeeded |
| Planner.EnumMemberFor | src/index.ts:148-157 | A member keeps the option's value and label; it fails exactly for a negative value; its name is the label normalized with the fallback `_<value>`, so it is legal and is `_<value>` for an empty label |
| Planner.GenerateEnum | src/index.ts:135-158 | No options gives nothing; otherwise the enum has the given name, the attribute's comment and one member per option in order, and fails exactly when a value is negative |
| Planner.BooleanClassName | src/index.ts:97-111 | The class name is kept exactly when it starts with `_` or the display name starts with a question word; otherwise it gets the `Is` prefix |
| Planner.FlagPropertyFor | src/index.ts:115-127 | A flag is true exactly for value 1 and is documented with the label; its name is the label normalized with the fallback `Yes` for value 1 and `No` otherwise, which never fails; it is legal, and is the fallback for an empty label |
| Planner.BooleanClass | src/index.ts:96-128 | A well-named class named by the Boolean rule, with one property per option and the attribute's comment |
| Planner.PlanAttribute | src/index.ts:73-129 | An attribute without options gives nothing; with options and an illegal logical name it fails with that name; whatever it produces is well named |
| Planner.PlanAttributeFails | src/index.ts:73-129 | An attribute aborts exactly when it has options and either its logical name is illegal or it is an enum type with a negative option value |
| Planner.PlanAttributeProduces | src/index.ts:83-129 | A successful attribute produces a declaration exactly when it has options and is Picklist, State, Status or Boolean |
| Planner.EnumDeclarationName | src/index.ts:83-94 | A Picklist enum is named after the normalized display name; State and Status enums are `StateCode` and `StatusCode` |
| Planner.BooleanDeclarationName | src/index.ts:96-111 | A Boolean attribute with options and a legal logical name produces the Boolean class for its normalized display name |
| Planner.OtherTypesSkipped | src/index.ts:80-129 | Any other type acts as a missing type: nothing is produced, yet an illegal logical name still aborts |
| Planner.GenerateEnums | src/index.ts:70-133 | Succeeds exactly when every attribute does, fails with the first failing attribute's error, and produces only well-named declarations; every declaration comes from an attribute, and every attribute's declaration is kept |
| Planner.GenerateEnumsSingle | src/index.ts:73-130 | A single attribute gives its declaration if it has one, nothing otherwise, or its error |
| Planner.GenerateEnumsAppend | src/index.ts:73-130 | The declarations of two attribute lists in a row are the declarations of each, in order, unless the first aborts |
| Planner.NoOptionsNoDecls | src/index.ts:73-76 | Attributes without options produce no declarations and never abort |
| Constants.ConstantFor | src/index.ts:54-65 | A constant named after the variable name, whose quoted value reads back as the logical name, documented like the attribute |
| Constants.GenerateConstants | src/index.ts:40-68 | The `Field` alias over the logical names comes first, documented like the entity, followed by one constant per attribute in order |
| Constants.FieldTypeRoundTrip | src/index.ts:43-49 | Parsing the `Field` type text gives back the logical names, for a non-empty list of names without quotes |
| Constants.EmptyFieldType | src/index.ts:43-49 | No attributes give the type `""`, the same text as one empty logical name |
| Constants.ConstantsInFieldType | src/index.ts:43-64 | Every constant's value is one of the alternatives of the `Field` type |
| Generator.GenerateForEntity | src/index.ts:24-35 | Succeeds exactly when the logical name is legal and the enums succeed; gives `constants/<name>.ts` and `enums/<name>.ts` with the generated declarations |
| Generator.EntityFileName | src/index.ts:27-33 | The file name is the legal normalized entity name plus `.ts`, and the logical name when there is no display name |
| Generator.IdentifierStaysInFolder | src/index.ts:29-33 | A legal entity name contains no path separator, so neither file leaves its folder |
| Generator.PathsDistinct | src/index.ts:29-34 | The two files of an entity never collide, and entities with different names get different files |
| RewriteLaws.ExpandOnce | src/index.ts:175 | One bracketed span between bracket-free text becomes `_inner_` |
| RewriteLaws.ExpandLine | src/index.ts:175 | Text with no `]` up to the end of its line is copied, `[` included: `a[b` stays `a[b` |
| RewriteLaws.JoinAfterPlain | src/index.ts:183 | A character other than a digit is copied in front of the rewrite of the rest |
| RewriteLaws.JoinAfterMatch | src/index.ts:183 | Digits, whitespace, then a word character: the whitespace becomes one `_` |
| RewriteLaws.JoinAfterNoGap | src/index.ts:183 | A number followed directly by something other than whitespace is copied: `2nd` stays `2nd` |
| RewriteLaws.JoinAfterNoWord | src/index.ts:183 | A number and its whitespace are copied when no word character follows the whitespace |
| RewriteLaws.JoinBeforePlain | src/index.ts:184 | A character other than whitespace is copied, and sets the word-boundary state for the rest |
| RewriteLaws.JoinBeforeMatch | src/index.ts:184 | After a word, whitespace followed by digits becomes one `_` before the digits |
| RewriteLaws.JoinBeforeNoNumber | src/index.ts:184 | A whitespace run is copied when no digit follows it or it does not come after a word: `a b 1` keeps the space before `b` |
| RewriteLaws.JoinBeforePrefix | src/index.ts:184 | A prefix without whitespace is copied, and it sets the word-boundary state for the rest |
| RewriteLaws.RemoveSpacesAppend | src/index.ts:185 | Removing whitespace distributes over concatenation |
| RewriteLaws.SpellCons | src/index.ts:179-180 | A sign with no word character after it on its line is spelled out; any other character is kept |
| Cases.JoinTwoWords | src/index.ts:181-185 | Two capitalized words without digits, separated by whitespace, are run together |
| Cases.NumberFirst | src/index.ts:174-193 | `123 Test` normalizes to `_123_Test` |
| Cases.BracketedTag | src/index.ts:174-185 | `Status [DEPRECATED]` normalizes to `Status_DEPRECATED_` |
| Cases.NumberList | src/index.ts:183-184 | `Foo 5,10,20 Bar` normalizes to `Foo_5_10_20_Bar` |
| Cases.TrailingSigns | src/index.ts:179-180 | `A--` normalizes to `AMinusMinus` |
| Cases.QuestionLabel | src/index.ts:174-185 | `Is Preferred` normalizes to `IsPreferred` |
| Cases.QuestionBoolean | src/index.ts:80-111 | A Boolean labelled `Is Preferred` gives the class `IsPreferred` |
| Cases.StatementBoolean | src/index.ts:80-111 | A Boolean labelled `Active` gives the class `IsActive` |
| Cases.UnderscoreClassName | src/index.ts:97-98 | A class name starting with `_` gets no prefix |
| Cases.UnlabelledOption | src/index.ts:148-156 | An option with an empty label and value 3 becomes the member `_3 = 3` |
| Cases.NegativeOption | src/index.ts:150 | An option with value -1 aborts with the illegal fallback `_-1` |
| Cases.FallbackChecked | src/index.ts:161-168 | An empty fallback and the fallback `1bad` are rejected before the label is looked at |

## Left out

- `generate` and `retrieveMetadata` (src/index.ts:8-22): loading the metadata module, resolving the paths and saving the project are I/O. A thrown error ends the whole run before anything is saved. The model reflects this by returning a `Failure` for the entity and no files.
- The syntax-tree library: the TypeScript text of the declarations is not modelled. Its layout, the `export` keywords and the `/** */` comment syntax are left out. Declarations are values with their names, members and comment text.
- The console output of every function.
- `path.resolve` and `path.join`: paths are joined with `/`, with no normalization of `.`, `..` or repeated separators.
- Overwriting a file when two entities get the same name: this is an effect on the shared project. `Generator.PathsDistinct` states when two paths differ.
- `Number.prototype.toString` for values of 1e21 and above, which switches to exponent notation, and for non-integer values: option values are integers.
- Strings are sequences of Unicode scalar values, not UTF-16 code units, so surrogate pairs are not modelled. Every character outside the Basic Multilingual Plane and each half of its surrogate pair is a non-word character that is neither whitespace nor a line terminator. Each pass therefore treats a pair like the single character it encodes. The one difference is line 181 of src/index.ts, which turns each half into its own space. That only lengthens a whitespace run, and lines 183-185 treat a run as a unit. Otherwise lengths matter only in the emptiness tests of lines 170 and 187.
- Duplicate names: the code does not check for duplicate enum members, flag properties or constants, and the model makes no claim about them.
- The build configuration (gulpfile and rollup) is not part of this model.
- Constants.ConstantFor: the read-back of the constant's value is stated only for logical names without `"`, because the code does not escape quotes.
- Constants.FieldTypeRoundTrip: stated only for non-empty lists of names without `"`, because the empty list and a single empty name give the same text (`Constants.EmptyFieldType`) and quotes are not escaped.

=== FILE: cases.dfy ===
/** Example labels, rewritten pass by pass: the two that the comments of
    src/index.ts mention (`[DEPRECATED]` and `Foo 5,10,20 Bar`), and one for
    each behaviour of the generator that a reader might not expect. Labels
    are written as concatenations of their pieces, the way the passes take
    them apart. Line numbers refer to src/index.ts. */
module Cases {
  import opened Wrappers
  import opened Chars
  import opened LabelRewrite
  import opened Normalizer
  import opened RewriteLaws
  import opened NumberText
  import opened Metadata
  import opened Declarations
  import opened Planner

  // ===== The examples ========================================================

  /** A label starting with a number keeps the underscore line 183 puts
      after the number and gets a `_` prefix from line 193. */
  lemma NumberFirst(fallback: string)
    requires LegalIdentifier(fallback)
    ensures NormalizeLabel(Some("123 Test"), fallback) == Success("_123_Test")
  {
    NumberFirstSpelling();
    NumberFirstSteps("123" + " " + "Test", fallback);
  }

  /** A bracketed tag is set off by underscores (line 175), and the space
      before it is dropped (line 185). */
  lemma BracketedTag(fallback: string)
    requires LegalIdentifier(fallback)
    ensures NormalizeLabel(Some("Status [DEPRECATED]"), fallback) == Success("Status_DEPRECATED_")
  {
    BracketClean("Status [DEPRECATED]", "Status _DEPRECATED_");
    BracketJoin("Status _DEPRECATED_", "Status_DEPRECATED_");
    NormalizeWordLabel("Status [DEPRECATED]", fallback, "Status_DEPRECATED_");
  }

  /** A list of numbers is joined by underscores on both sides of each
      number (lines 183-184). */
  lemma NumberList(fallback: string)
    requires LegalIdentifier(fallback)
    ensures NormalizeLabel(Some("Foo 5,10,20 Bar"), fallback) == Success("Foo_5_10_20_Bar")
  {
    var s, t := "Foo 5,10,20 Bar", "Foo 5 10 20 Bar";
    ListClean(s);
    ListBlanked(s, t);
    ListCapitals(t);
    JoinWordsBlanked(s, t);
    ListAfter(t, "Foo 5_10_20_Bar");
    ListBefore("Foo 5_10_20_Bar", "Foo_5_10_20_Bar");
    NormalizeWordLabel(s, fallback, "Foo_5_10_20_Bar");
  }

  /** Each trailing `-` is spelled out on its own (lines 179-180). */
  lemma TrailingSigns(fallback: string)
    requires LegalIdentifier(fallback)
    ensures NormalizeLabel(Some("A--"), fallback) == Success("AMinusMinus")
  {
    SignsTrimmed("A--");
    SignsSpelled("A--", "AMinusMinus");
    SignsWords("AMinusMinus");
    NormalizeWordLabel("A--", fallback, "AMinusMinus");
  }

  /** The words of a label are run together: `IsPreferred`. */
  lemma QuestionLabel(fallback: string)
    requires LegalIdentifier(fallback)
    ensures NormalizeLabel(Some("Is Preferred"), fallback) == Success("IsPreferred")
  {
    QuestionClean("Is Preferred");
    QuestionJoin("Is Preferred", "IsPreferred");
    NormalizeWordLabel("Is Preferred", fallback, "IsPreferred");
  }

  /** A Boolean whose display name asks a question keeps its name. */
  lemma QuestionClassName()
    ensures BooleanClassName("IsPreferred", "Is Preferred") == "IsPreferred"
  {
    assert "Is " in QuestionWords;
    assert StartsWith("Is Preferred", "Is ");
  }

  /** Any other Boolean gets the `Is` prefix. */
  lemma StatementClassName()
    ensures BooleanClassName("Active", "Active") == "IsActive"
  {
    var s := "Active";
    Mismatch(s, "_", 0);
    Mismatch(s, "Is ", 1);
    Mismatch(s, "Are ", 1);
    Mismatch(s, "Has ", 0);
    Mismatch(s, "Have ", 0);
    Mismatch(s, "Do ", 0);
    Mismatch(s, "Does ", 0);
  }

  /** A Boolean attribute labelled `Is Preferred` gives the class
      `IsPreferred`, with no second `Is`. */
  lemma QuestionBoolean(a: AttributeMetadata)
    requires a.attributeType == Some(Boolean) && a.displayName == Some("Is Preferred")
    requires a.options.Some? && LegalIdentifier(a.logicalName)
    ensures PlanAttribute(a).Success? && PlanAttribute(a).value.Some?
    ensures PlanAttribute(a).value.value.name == "IsPreferred"
  {
    BooleanDeclarationName(a);
    QuestionLabel(a.logicalName);
    QuestionClassName();
  }

  /** A Boolean attribute labelled `Active` gives the class `IsActive`. */
  lemma StatementBoolean(a: AttributeMetadata)
    requires a.attributeType == Some(Boolean) && a.displayName == Some("Active")
    requires a.options.Some? && LegalIdentifier(a.logicalName)
    ensures PlanAttribute(a).Success? && PlanAttribute(a).value.Some?
    ensures PlanAttribute(a).value.value.name == "IsActive"
  {
    BooleanDeclarationName(a);
    ActiveLabel("Active", a.logicalName);
    StatementClassName();
  }

  /** A class name that starts with `_` keeps it, whatever the display
      name: `123 Test` gives the class `_123_Test`. */
  lemma UnderscoreClassName()
    ensures BooleanClassName("_123_Test", "123 Test") == "_123_Test"
  {
    assert StartsWith("_123_Test", "_");
  }

  /** An option without a label is named after its value. */
  lemma UnlabelledOption()
    ensures EnumMemberFor(OptionMetadata("", 3)) == Success(EnumMember("_3", 3, ""))
  {
    assert DigitChar(3) == '3';
    assert NatToString(3) == "3";
    assert ValueFallback(3) == "_3";
  }

  /** A negative value gives an illegal fallback, so even a labelled option
      aborts the run. */
  lemma NegativeOption()
    ensures EnumMemberFor(OptionMetadata("Minus one", -1)) == Failure(InvalidFallback("_-1"))
  {
    assert DigitChar(1) == '1';
    assert NatToString(1) == "1";
    assert ValueFallback(-1) == "_-1";
  }

  /** The fallback is checked before the label is looked at (lines 161-167). */
  lemma FallbackChecked()
    ensures NormalizeLabel(Some("Test"), "") == Failure(EmptyFallback)
    ensures NormalizeLabel(Some("Test"), "1bad") == Failure(InvalidFallback("1bad"))
  {
    assert !LegalIdentifier("1bad");
  }

  // ===== How the examples are computed =========================================
  //
  // The lemmas from here on compute the passes one at a time on the pieces
  // of the example labels. Each literal gets its own small lemma, with the
  // literal passed as a parameter, so that the solver never has to unfold a
  // pass over a whole literal label at once.

  // ----- steps shared by the examples ----------------------------------------

  /** Lines 181-185 on two capitalized words without digits: they are
      run together. */
  lemma JoinTwoWords(a: string, sp: string, b: string)
    requires |a| > 0 && AllWord(a) && NoDigit(a) && !IsLower(a[0])
    requires |sp| > 0 && AllSpace(sp)
    requires |b| > 0 && AllWord(b) && NoDigit(b) && !IsLower(b[0])
    ensures JoinWords(a + sp + b) == a + b
  {
    var s := a + sp + b;
    forall k | 0 <= k < |s|
      ensures IsWord(s[k]) || IsSpace(s[k])
      ensures WordStart(s, k, false) ==> !IsLower(s[k])
    {
      if k < |a| {
        assert s[k] == a[k];
        if k > 0 { assert s[k - 1] == a[k - 1]; }
      } else if k < |a| + |sp| {
        assert s[k] == sp[k - |a|];
      } else {
        assert s[k] == b[k - |a| - |sp|];
        if k > |a| + |sp| { assert s[k - 1] == b[k - 1 - |a| - |sp|]; }
      }
    }
    JoinWordsVia(s);
    AllWordNoSpace(a);
    AllWordNoSpace(b);
    GapDropped(a, sp, b);
  }

  /** Normalization of a non-empty label whose rewrite is known. */
  lemma NormalizeVia(text: string, fallback: string, result: string)
    requires LegalIdentifier(fallback) && |text| > 0 && Rewrite(text) == result
    ensures NormalizeLabel(Some(text), fallback) == Success(Finish(result, fallback))
  {
  }

  lemma NormalizeDigitLabel(text: string, fallback: string, result: string)
    requires LegalIdentifier(fallback) && |text| > 0 && Rewrite(text) == result
    requires |result| > 0 && IsDigit(result[0])
    ensures NormalizeLabel(Some(text), fallback) == Success("_" + result)
  {
    NormalizeVia(text, fallback, result);
  }

  /** A label that starts with a letter needs no prefix. */
  lemma NormalizeWordLabel(text: string, fallback: string, result: string)
    requires LegalIdentifier(fallback) && |text| > 0 && Rewrite(text) == result
    requires |result| > 0 && !IsDigit(result[0])
    ensures NormalizeLabel(Some(text), fallback) == Success(result)
  {
    NormalizeVia(text, fallback, result);
  }

  /** Text that starts and ends with a word character and has no quote
      or sign: lines 176-180 leave it alone. */
  predicate Plain(e: string) {
    && |e| > 0 && IsWord(e[0]) && IsWord(e[|e| - 1])
    && forall k :: 0 <= k < |e| ==> !IsQuote(e[k]) && e[k] != '-' && e[k] != '+'
  }

  /** Lines 176-180 keep the text line 175 produced. */
  lemma CleanVia(s: string, e: string)
    requires ExpandBrackets(s) == e && Plain(e)
    ensures CleanLabel(s) == e
  {
    TrimAndSpellKeep(e);
  }

  /** Lines 181-182 keep a text of capitalized words and whitespace. */
  lemma JoinWordsVia(s: string)
    requires WordOrSpace(s)
    requires forall k :: 0 <= k < |s| && WordStart(s, k, false) ==> !IsLower(s[k])
    ensures JoinWords(s) == RemoveSpaces(JoinBeforeNumbers(JoinAfterNumbers(s), false))
  {
    BlankFixes(s);
    CapitalizeFixes(s, false);
  }

  /** Lines 183-185 on two words without digits: the gap is dropped. */
  lemma GapDropped(a: string, sp: string, b: string)
    requires NoDigit(a) && NoSpace(a) && NoDigit(b) && NoSpace(b)
    requires AllSpace(sp)
    ensures RemoveSpaces(JoinBeforeNumbers(JoinAfterNumbers(a + sp + b), false)) == a + b
  {
    var s := a + sp + b;
    forall k | 0 <= k < |s|
      ensures !IsDigit(s[k])
    {
      if k < |a| { assert s[k] == a[k]; }
      else if k < |a| + |sp| { assert s[k] == sp[k - |a|]; }
      else { assert s[k] == b[k - |a| - |sp|]; }
    }
    JoinAfterNoDigits(s);
    JoinBeforeNoDigits(s, false);
    RemoveOneGap(a, sp, b);
  }

  /** Line 184 and 185 leave text without whitespace alone. */
  lemma NoSpaceKept(s: string, afterWord: bool)
    requires NoSpace(s)
    ensures JoinBeforeNumbers(s, afterWord) == s && RemoveSpaces(s) == s
  {
  }

  /** Lines 181-182 as given by their results. */
  lemma JoinWordsBlanked(s: string, t: string)
    requires BlankSymbols(s) == t
    requires forall k :: 0 <= k < |t| && WordStart(t, k, false) ==> !IsLower(t[k])
    ensures JoinWords(s) == RemoveSpaces(JoinBeforeNumbers(JoinAfterNumbers(t), false))
  {
    CapitalizeFixes(t, false);
  }

  lemma Mismatch(s: string, p: string, k: nat)
    requires k < |s| && k < |p| && s[k] != p[k]
    ensures !StartsWith(s, p)
  {
  }

  /** A label that is already an identifier is kept. */
  lemma ActiveLabel(s: string, fallback: string)
    requires s == "Active" && LegalIdentifier(fallback)
    ensures NormalizeLabel(Some(s), fallback) == Success(s)
  {
    assert Normalized(s);
    NormalizedIsFixedPoint(s, fallback);
  }

  // ----- steps of `123 Test` --------------------------------------------------

  lemma NumberFirstClean()
    ensures CleanLabel("123" + " " + "Test") == "123" + " " + "Test"
  {
    var s := "123" + " " + "Test";
    ExpandNoBracket(s);
    TrimAndSpellKeep(s);
  }

  lemma NumberFirstCapitalize()
    ensures CapitalizeWords(BlankSymbols("123" + " " + "Test"), false) == "123" + " " + "Test"
  {
    var s := "123" + " " + "Test";
    BlankFixes(s);
    CapitalizeFixes(s, false);
  }

  lemma NumberFirstJoinAfter()
    ensures JoinAfterNumbers("123" + " " + "Test") == "123" + "_" + "Test"
  {
    JoinAfterOnce("123", " ", "Test");
  }

  lemma NumberFirstJoinBefore()
    ensures RemoveSpaces(JoinBeforeNumbers("123" + "_" + "Test", false)) == "123" + "_" + "Test"
  {
    NoSpaceStays("123" + "_" + "Test", false);
  }

  lemma NumberFirstRewrite()
    ensures Rewrite("123" + " " + "Test") == "123" + "_" + "Test"
  {
    NumberFirstClean();
    NumberFirstCapitalize();
    NumberFirstJoinAfter();
    NumberFirstJoinBefore();
  }

  lemma NumberFirstSteps(text: string, fallback: string)
    requires text == "123" + " " + "Test" && LegalIdentifier(fallback)
    ensures NormalizeLabel(Some(text), fallback) == Success("_" + ("123" + "_" + "Test"))
  {
    NumberFirstRewrite();
    NormalizeDigitLabel(text, fallback, "123" + "_" + "Test");
  }

  lemma NumberFirstSpelling()
    ensures "123" + " " + "Test" == "123 Test" && "_" + ("123" + "_" + "Test") == "_123_Test"
  {
  }

  // ----- steps of `Status [DEPRECATED]` ---------------------------------------

  lemma BracketSplit()
    ensures "Status " + "[" + "DEPRECATED" + "]" + "" == "Status [DEPRECATED]"
  {
  }

  lemma BracketExpanded()
    ensures "Status " + "_" + "DEPRECATED" + "_" + "" == "Status _DEPRECATED_"
  {
  }

  lemma BracketExpand(s: string, e: string)
    requires s == "Status [DEPRECATED]" && e == "Status _DEPRECATED_"
    ensures ExpandBrackets(s) == e
  {
    ExpandOnce("Status ", "DEPRECATED", "");
    BracketSplit();
    BracketExpanded();
  }

  lemma BracketPlain(e: string)
    requires e == "Status _DEPRECATED_"
    ensures Plain(e)
  {
  }

  lemma BracketClean(s: string, e: string)
    requires s == "Status [DEPRECATED]" && e == "Status _DEPRECATED_"
    ensures CleanLabel(s) == e
  {
    BracketExpand(s, e);
    BracketPlain(e);
    CleanVia(s, e);
  }

  lemma BracketGap()
    ensures "Status" + " " + "_DEPRECATED_" == "Status _DEPRECATED_"
  {
  }

  lemma BracketJoined()
    ensures "Status" + "_DEPRECATED_" == "Status_DEPRECATED_"
  {
  }

  lemma BracketJoin(s: string, r: string)
    requires s == "Status _DEPRECATED_" && r == "Status_DEPRECATED_"
    ensures JoinWords(s) == r
  {
    JoinTwoWords("Status", " ", "_DEPRECATED_");
    BracketGap();
    BracketJoined();
  }

  // ----- steps of `Foo 5,10,20 Bar` -------------------------------------------

  lemma ListClean(s: string)
    requires s == "Foo 5,10,20 Bar"
    ensures CleanLabel(s) == s
  {
    ListPlain(s);
    ExpandNoBracket(s);
    CleanVia(s, s);
  }

  lemma ListPlain(s: string)
    requires s == "Foo 5,10,20 Bar"
    ensures Plain(s) && forall k :: 0 <= k < |s| ==> s[k] != '['
  {
  }

  lemma ListBlanked(s: string, t: string)
    requires s == "Foo 5,10,20 Bar" && t == "Foo 5 10 20 Bar"
    ensures BlankSymbols(s) == t
  {
    BlankPoints(s, t);
  }

  lemma ListCapitals(t: string)
    requires t == "Foo 5 10 20 Bar"
    ensures forall k :: 0 <= k < |t| && WordStart(t, k, false) ==> !IsLower(t[k])
  {
  }

  lemma ListPieces()
    ensures "20" + " " + "Bar" == "20 Bar" && "20" + "_" + "Bar" == "20_Bar"
    ensures "10" + " " + "20 Bar" == "10 20 Bar" && "10" + "_" + "20_Bar" == "10_20_Bar"
    ensures "5" + " " + "10 20 Bar" == "5 10 20 Bar" && "5" + "_" + "10_20_Bar" == "5_10_20_Bar"
    ensures "Foo " + "5 10 20 Bar" == "Foo 5 10 20 Bar" && "Foo " + "5_10_20_Bar" == "Foo 5_10_20_Bar"
  {
  }

  lemma ListAfter1(x: string, y: string)
    requires x == "20 Bar" && y == "20_Bar"
    ensures JoinAfterNumbers(x) == y
  {
    JoinAfterOnce("20", " ", "Bar");
    ListPieces();
  }

  lemma ListAfter2(x: string, y: string)
    requires x == "10 20 Bar" && y == "10_20_Bar"
    ensures JoinAfterNumbers(x) == y
  {
    JoinAfterMatch("10", " ", "20 Bar");
    ListAfter1("20 Bar", "20_Bar");
    ListPieces();
  }

  lemma ListAfter3(x: string, y: string)
    requires x == "5 10 20 Bar" && y == "5_10_20_Bar"
    ensures JoinAfterNumbers(x) == y
  {
    JoinAfterMatch("5", " ", "10 20 Bar");
    ListAfter2("10 20 Bar", "10_20_Bar");
    ListPieces();
  }

  lemma ListAfter(x: string, y: string)
    requires x == "Foo 5 10 20 Bar" && y == "Foo 5_10_20_Bar"
    ensures JoinAfterNumbers(x) == y
  {
    JoinAfterPrefix("Foo ", "5 10 20 Bar");
    ListAfter3("5 10 20 Bar", "5_10_20_Bar");
    ListPieces();
  }

  lemma ListBeforePieces()
    ensures " " + "5" + "_10_20_Bar" == " 5_10_20_Bar"
    ensures "_" + "5" + "_10_20_Bar" == "_5_10_20_Bar"
  {
  }

  lemma ListWithoutSpace()
    ensures NoSpace("Foo") && NoSpace("_10_20_Bar") && NoSpace("Foo_5_10_20_Bar")
    ensures AllSpace(" ") && AllDigits("5") && !IsDigit("_10_20_Bar"[0])
  {
  }

  lemma ListBefore1(x: string, y: string)
    requires x == " 5_10_20_Bar" && y == "_5_10_20_Bar"
    ensures JoinBeforeNumbers(x, true) == y
  {
    ListWithoutSpace();
    JoinBeforeMatch(" ", "5", "_10_20_Bar");
    NoSpaceKept("_10_20_Bar", true);
    ListBeforePieces();
  }

  lemma ListBeforeJoined()
    ensures "Foo" + " 5_10_20_Bar" == "Foo 5_10_20_Bar"
    ensures "Foo" + "_5_10_20_Bar" == "Foo_5_10_20_Bar"
  {
  }

  lemma ListBefore2(x: string, y: string)
    requires x == "Foo 5_10_20_Bar" && y == "Foo_5_10_20_Bar"
    ensures JoinBeforeNumbers(x, false) == y
  {
    ListWithoutSpace();
    JoinBeforePrefix("Foo", " 5_10_20_Bar", false);
    ListBefore1(" 5_10_20_Bar", "_5_10_20_Bar");
    ListBeforeJoined();
  }

  lemma ListBefore(x: string, y: string)
    requires x == "Foo 5_10_20_Bar" && y == "Foo_5_10_20_Bar"
    ensures RemoveSpaces(JoinBeforeNumbers(x, false)) == y
  {
    ListBefore2(x, y);
    ListWithoutSpace();
    NoSpaceKept(y, false);
  }

  // ----- steps of `A--` -------------------------------------------------------

  lemma SignsTrimmed(s: string)
    requires s == "A--"
    ensures RemoveQuotes(TrimTrailingSymbols(TrimLeadingSymbols(ExpandBrackets(s)))) == s
  {
    ExpandNoBracket(s);
    assert LeadingSymbolCount(s) == 0;
    assert TrailingSymbolCount(s) == 0;
  }

  lemma SignsSpelled(s: string, r: string)
    requires s == "A--" && r == "AMinusMinus"
    ensures SpellTrailingMinus(s) == r
  {
    SpellCons('-', "", '-', "Minus");
    SpellCons('-', "-", '-', "Minus");
    SpellCons('A', "--", '-', "Minus");
    SignsPieces();
    assert !WordAhead("-");
  }

  lemma SignsPieces()
    ensures ['-'] + "" == "-" && ['-'] + "-" == "--" && ['A'] + "--" == "A--"
    ensures ['A'] + ("Minus" + ("Minus" + [])) == "AMinusMinus"
  {
  }

  lemma SignsWords(r: string)
    requires r == "AMinusMinus"
    ensures SpellTrailingPlus(r) == r && JoinWords(r) == r
  {
    JoinWordsFixesWords(r);
  }

  // ----- steps of `Is Preferred` ----------------------------------------------

  lemma QuestionPlain(s: string)
    requires s == "Is Preferred"
    ensures Plain(s) && forall k :: 0 <= k < |s| ==> s[k] != '['
  {
  }

  lemma QuestionClean(s: string)
    requires s == "Is Preferred"
    ensures CleanLabel(s) == s
  {
    QuestionPlain(s);
    ExpandNoBracket(s);
    CleanVia(s, s);
  }

  lemma QuestionGap()
    ensures "Is" + " " + "Preferred" == "Is Preferred"
  {
  }

  lemma QuestionJoined()
    ensures "Is" + "Preferred" == "IsPreferred"
  {
  }

  lemma QuestionJoin(s: string, r: string)
    requires s == "Is Preferred" && r == "IsPreferred"
    ensures JoinWords(s) == r
  {
    JoinTwoWords("Is", " ", "Preferred");
    QuestionGap();
    QuestionJoined();
  }
}

=== FILE: chars.dfy ===
/** Character classes of JavaScript regular expressions (without the `u`
    flag) and of TypeScript identifiers, as the normalizer uses them. */
module Chars {

  predicate IsLower(c: char) { 'a' <= c <= 'z' }

  predicate IsUpper(c: char) { 'A' <= c <= 'Z' }

  predicate IsAsciiLetter(c: char) { IsLower(c) || IsUpper(c) }

  /** `\d`, and the `isDigit` helper of the generator. */
  predicate IsDigit(c: char) { '0' <= c <= '9' }

  /** `\w`: ASCII letters, digits and the underscore. */
  predicate IsWord(c: char) { IsAsciiLetter(c) || IsDigit(c) || c == '_' }

  /** The characters the regular-expression `.` does not match. */
  predicate IsLineTerminator(c: char) {
    c == '\n' || c == '\r' || c == '\U{2028}' || c == '\U{2029}'
  }

  /** `\s`: the JavaScript WhiteSpace and LineTerminator characters. */
  predicate IsSpace(c: char) {
    || c == ' ' || c == '\t' || c == '\U{000B}' || c == '\U{000C}'
    || IsLineTerminator(c)
    || c == '\U{00A0}' || c == '\U{1680}' || ('\U{2000}' <= c <= '\U{200A}')
    || c == '\U{202F}' || c == '\U{205F}' || c == '\U{3000}' || c == '\U{FEFF}'
  }

  /** Only `\w` characters. */
  predicate AllWord(s: string) {
    forall k :: 0 <= k < |s| ==> IsWord(s[k])
  }

  /** Only `\w` and `\s` characters. */
  predicate WordOrSpace(s: string) {
    forall k :: 0 <= k < |s| ==> IsWord(s[k]) || IsSpace(s[k])
  }

  /** No `\s` character. */
  predicate NoSpace(s: string) {
    forall k :: 0 <= k < |s| ==> !IsSpace(s[k])
  }

  /** `toUpperCase` of a one-character string holding a `\w` character. */
  function ToUpper(c: char): (u: char)
    ensures IsWord(c) <==> IsWord(u)
    ensures IsDigit(c) <==> IsDigit(u)
    ensures IsWord(c) ==> !IsLower(u)
    ensures !IsLower(c) ==> u == c
  {
    if IsLower(c) then (c as int - 32) as char else c
  }

  /** `[a-zA-Z_$]` */
  predicate IsIdentStart(c: char) { IsAsciiLetter(c) || c == '_' || c == '$' }

  /** `[0-9a-zA-Z_$]` */
  predicate IsIdentPart(c: char) { IsIdentStart(c) || IsDigit(c) }

  /** The fallback pattern `^[a-zA-Z_$][0-9a-zA-Z_$]*$`: a legal TypeScript
      identifier made of ASCII characters. */
  predicate LegalIdentifier(s: string) {
    |s| > 0 && IsIdentStart(s[0]) && forall k :: 1 <= k < |s| ==> IsIdentPart(s[k])
  }

  lemma WordOrSpaceAppend(a: string, b: string)
    ensures WordOrSpace(a) && WordOrSpace(b) ==> WordOrSpace(a + b)
  {
    if WordOrSpace(a) && WordOrSpace(b) {
      assert forall k :: |a| <= k < |a + b| ==> (a + b)[k] == b[k - |a|];
    }
  }

  lemma WordOrSpaceSlice(s: string, i: nat, j: nat)
    requires i <= j <= |s|
    ensures WordOrSpace(s) ==> WordOrSpace(s[i..j])
  {
  }

  /** An underscore followed by `\w` characters is a legal identifier. */
  lemma UnderscorePrefix(s: string)
    requires AllWord(s)
    ensures AllWord("_" + s) && LegalIdentifier("_" + s)
  {
    var r := "_" + s;
    assert forall k :: 1 <= k < |r| ==> r[k] == s[k - 1];
  }

  /** Every `\w` string that does not start with a digit is a legal identifier. */
  lemma WordsAreIdentifier(s: string)
    requires |s| > 0 && !IsDigit(s[0])
    requires AllWord(s)
    ensures LegalIdentifier(s)
  {
  }
}

=== FILE: constants.dfy ===
/** `generateConstants`: the `Field` union type of an entity's attribute
    names and one string constant per attribute.
    Line numbers refer to src/index.ts. */
module Constants {
  import opened Wrappers
  import opened Metadata
  import opened JsDoc
  import opened Declarations

  /** `Array.prototype.join`: the parts with `sep` between neighbours. */
  function Join(parts: seq<string>, sep: string): string
    decreases |parts|
  {
    if |parts| == 0 then ""
    else if |parts| == 1 then parts[0]
    else parts[0] + sep + Join(parts[1..], sep)
  }

  /** The separator between two alternatives: closing quote, bar, line
      break, opening quote. */
  const Separator: string := "\" |\n\""

  /** Lines 43-49: the text of the `Field` type, the logical names quoted
      and joined into a union, one per line. */
  function FieldTypeText(names: seq<string>): string {
    "\"" + Join(names, Separator) + "\""
  }

  function LogicalNames(attrs: seq<AttributeMetadata>): (r: seq<string>)
    ensures |r| == |attrs|
    ensures forall i :: 0 <= i < |attrs| ==> r[i] == attrs[i].logicalName
  {
    seq(|attrs|, i requires 0 <= i < |attrs| => attrs[i].logicalName)
  }

  /** Lines 55-64: `const <VariableName> = "<LogicalName>"`, documented like
      the attribute. */
  function ConstantFor(a: AttributeMetadata): (r: Decl)
    ensures r.ConstVariable? && r.name == a.variableName
    ensures NoQuote(a.logicalName) ==> Unquote(r.initializer) == Some(a.logicalName)
    ensures r.doc == DocFor(a.Base())
  {
    var init := "\"" + a.logicalName + "\"";
    assert init[1..|init| - 1] == a.logicalName;
    ConstVariable(a.variableName, init, DocFor(a.Base()))
  }

  /** Lines 40-68: the `Field` alias first, documented like the entity, then
      one constant per attribute in attribute order. */
  function GenerateConstants(e: EntityMetadata): (r: seq<Decl>)
    ensures |r| == |e.attributes| + 1
    ensures r[0] == TypeAlias("Field", FieldTypeText(LogicalNames(e.attributes)), DocFor(e.Base()))
    ensures forall i :: 0 <= i < |e.attributes| ==> r[i + 1] == ConstantFor(e.attributes[i])
  {
    [TypeAlias("Field", FieldTypeText(LogicalNames(e.attributes)), DocFor(e.Base()))]
      + seq(|e.attributes|, i requires 0 <= i < |e.attributes| => ConstantFor(e.attributes[i]))
  }

  // Reading generated text back.

  predicate NoQuote(s: string) {
    forall k :: 0 <= k < |s| ==> s[k] != '"'
  }

  /** The content of a double-quoted string literal without escapes. */
  function Unquote(t: string): (r: Option<string>)
    ensures r.Some? ==> NoQuote(r.value) && t == "\"" + r.value + "\""
  {
    if |t| >= 2 && t[0] == '"' && t[|t| - 1] == '"' && NoQuote(t[1..|t| - 1]) then
      assert t == "\"" + t[1..|t| - 1] + "\"";
      Some(t[1..|t| - 1])
    else None
  }

  /** Index of the first `"` in `t`, if any. */
  function FirstQuote(t: string): (r: Option<nat>)
    ensures r.Some? ==> r.value < |t| && t[r.value] == '"' && NoQuote(t[..r.value])
    ensures r.None? ==> NoQuote(t)
    decreases |t|
  {
    if |t| == 0 then None
    else if t[0] == '"' then Some(0)
    else
      match FirstQuote(t[1..])
      case None => None
      case Some(j) =>
        assert t[..j + 1] == [t[0]] + t[1..][..j];
        Some(j + 1)
  }

  /** Parses the alternatives of a union of string literals, starting just
      after an opening quote. */
  function Alternatives(t: string): Option<seq<string>>
    decreases |t|
  {
    match FirstQuote(t)
    case None => None
    case Some(j) =>
      var rest := t[j + 1..];
      if rest == [] then Some([t[..j]])
      else if |rest| >= |Separator| - 1 && rest[..|Separator| - 1] == Separator[1..] then
        match Alternatives(rest[|Separator| - 1..])
        case None => None
        case Some(more) => Some([t[..j]] + more)
      else None
  }

  /** Parses the text of a union of string literals. */
  function ParseFieldType(t: string): Option<seq<string>> {
    if |t| > 0 && t[0] == '"' then Alternatives(t[1..]) else None
  }

  /** The `Field` type lists exactly the logical names, in order, when
      there is at least one and none contains a double quote. */
  lemma FieldTypeRoundTrip(names: seq<string>)
    requires |names| > 0
    requires forall i :: 0 <= i < |names| ==> NoQuote(names[i])
    ensures ParseFieldType(FieldTypeText(names)) == Some(names)
  {
    var t := FieldTypeText(names);
    assert t[1..] == Join(names, Separator) + "\"";
    AlternativesJoin(names);
  }

  lemma {:induction false} AlternativesJoin(names: seq<string>)
    requires |names| > 0
    requires forall i :: 0 <= i < |names| ==> NoQuote(names[i])
    ensures Alternatives(Join(names, Separator) + "\"") == Some(names)
    decreases |names|
  {
    var n := names[0];
    if |names| == 1 {
      assert Join(names, Separator) == n;
      AlternativesLast(n);
      assert [n] == names;
    } else {
      var rest := names[1..];
      var tail := Join(rest, Separator) + "\"";
      assert forall i :: 0 <= i < |rest| ==> rest[i] == names[i + 1];
      AlternativesJoin(rest);
      AlternativesNext(n, tail, rest);
      JoinQuoted(names);
      assert [n] + rest == names;
    }
  }

  /** The quoted join of two or more names, split after the first. */
  lemma JoinQuoted(names: seq<string>)
    requires |names| >= 2
    ensures Join(names, Separator) + "\"" == names[0] + Separator + (Join(names[1..], Separator) + "\"")
  {
    JoinCons(names, Separator);
    Regroup(names[0] + Separator, Join(names[1..], Separator), "\"");
  }

  lemma Regroup(a: string, b: string, c: string)
    ensures a + b + c == a + (b + c)
  {
  }

  lemma JoinCons(parts: seq<string>, sep: string)
    requires |parts| >= 2
    ensures Join(parts, sep) == parts[0] + sep + Join(parts[1..], sep)
  {
  }

  /** The last alternative. */
  lemma AlternativesLast(n: string)
    requires NoQuote(n)
    ensures Alternatives(n + "\"") == Some([n])
  {
    var t := n + "\"";
    FirstQuoteAfter(n, "\"");
    assert t[|n| + 1..] == [];
    assert t[..|n|] == n;
  }

  /** An alternative followed by the separator and more alternatives. */
  lemma AlternativesNext(n: string, tail: string, more: seq<string>)
    requires NoQuote(n) && Alternatives(tail) == Some(more)
    ensures Alternatives(n + Separator + tail) == Some([n] + more)
  {
    var t := n + Separator + tail;
    Regroup(n, Separator, tail);
    FirstQuoteAfter(n, Separator + tail);
    SeparatorSkipped(n, tail);
    AlternativesAt(t, |n|, more);
  }

  /** One step of the parse: the alternative before the first quote, then
      the separator, then the alternatives of the rest. */
  lemma AlternativesAt(t: string, j: nat, more: seq<string>)
    requires FirstQuote(t) == Some(j)
    requires |t[j + 1..]| >= |Separator| - 1 && t[j + 1..][..|Separator| - 1] == Separator[1..]
    requires Alternatives(t[j + 1..][|Separator| - 1..]) == Some(more)
    ensures Alternatives(t) == Some([t[..j]] + more)
  {
  }

  /** The pieces of an alternative, the separator and the rest. */
  lemma SeparatorSkipped(n: string, tail: string)
    ensures var t := n + Separator + tail;
      && t[..|n|] == n
      && t[|n| + 1..][..|Separator| - 1] == Separator[1..]
      && t[|n| + 1..][|Separator| - 1..] == tail
  {
    var t := n + Separator + tail;
    assert t[|n| + 1..] == Separator[1..] + tail;
  }

  /** The first quote of `n + "\"" + rest` is the one after `n`, when `n`
      has none. */
  lemma {:induction false} FirstQuoteAfter(n: string, rest: string)
    requires NoQuote(n) && |rest| > 0 && rest[0] == '"'
    ensures FirstQuote(n + rest) == Some(|n|)
    decreases |n|
  {
    if |n| > 0 {
      assert (n + rest)[1..] == n[1..] + rest;
      FirstQuoteAfter(n[1..], rest);
    } else {
      assert n + rest == rest;
    }
  }

  /** With no attributes the type is the empty string literal `""`, the
      same text one attribute with an empty logical name gives. */
  lemma EmptyFieldType()
    ensures FieldTypeText([]) == "\"\""
    ensures FieldTypeText([""]) == FieldTypeText([])
  {
  }

  /** Every constant's value is one of the alternatives of the `Field`
      type, so the constants type-check as `Field`. */
  lemma ConstantsInFieldType(e: EntityMetadata, i: nat)
    requires i < |e.attributes|
    requires forall k :: 0 <= k < |e.attributes| ==> NoQuote(e.attributes[k].logicalName)
    ensures var c := GenerateConstants(e);
      && Unquote(c[i + 1].initializer) == Some(e.attributes[i].logicalName)
      && ParseFieldType(c[0].typeText) == Some(LogicalNames(e.attributes))
  {
    FieldTypeRoundTrip(LogicalNames(e.attributes));
  }
}

=== FILE: declarations.dfy ===
/** The declarations the generator adds to its output files, as values in
    place of the syntax-tree nodes the code builds. Every declaration is
    exported; enums are `const enum`s and flag properties are
    `public static readonly`. */
module Declarations {
  import opened Wrappers
  import opened Chars

  /** An enum member `name = value`, documented with the option's label. */
  datatype EnumMember = EnumMember(name: string, value: int, doc: string)

  /** A property `name = true|false` of a Boolean class, documented with
      the option's label. */
  datatype FlagProperty = FlagProperty(name: string, value: bool, doc: string)

  /** A top-level declaration with its optional documentation comment. */
  datatype Decl =
    | TypeAlias(name: string, typeText: string, doc: Option<string>)
    | ConstVariable(name: string, initializer: string, doc: Option<string>)
    | ConstEnum(name: string, members: seq<EnumMember>, doc: Option<string>)
    | FlagClass(name: string, properties: seq<FlagProperty>, doc: Option<string>)

  /** The declaration and all the names it introduces inside itself are
      legal identifiers. */
  predicate WellNamed(d: Decl) {
    LegalIdentifier(d.name)
    && (d.ConstEnum? ==> forall k :: 0 <= k < |d.members| ==> LegalIdentifier(d.members[k].name))
    && (d.FlagClass? ==> forall k :: 0 <= k < |d.properties| ==> LegalIdentifier(d.properties[k].name))
  }
}

=== FILE: generator.dfy ===
/** `generateForEntity`: the two source files generated for one entity,
    named after the entity.
    Line numbers refer to src/index.ts. */
module Generator {
  import opened Wrappers
  import opened Chars
  import opened Metadata
  import opened Normalizer
  import opened Declarations
  import opened Planner
  import opened Constants

  /** A generated source file: the sub-folder of the output folder, the
      file name, and its declarations in order. */
  datatype Artifact = Artifact(folder: string, fileName: string, decls: seq<Decl>)

  /** The path of a file under the output folder, segments joined by `/`. */
  function OutputPath(outputFolder: string, a: Artifact): string {
    outputFolder + "/" + a.folder + "/" + a.fileName
  }

  /** `path.join`'s separators and the characters that would let a file
      name leave its folder. */
  predicate IsSeparator(c: char) {
    c == '/' || c == '\\'
  }

  /** Lines 24-35: the entity name is its normalized display name (logical
      name as fallback), computed before anything else; the constants file
      `constants/<name>.ts` is built, then the enums file
      `enums/<name>.ts`, whose generation may still abort. */
  function GenerateForEntity(e: EntityMetadata): (r: Result<(Artifact, Artifact), NormalizeError>)
    ensures r.Success? <==> LegalIdentifier(e.logicalName) && GenerateEnums(e.attributes).Success?
    ensures !LegalIdentifier(e.logicalName) ==> r == Failure(FallbackError(e.logicalName))
    ensures r.Success? ==>
      && r.value.0.folder == "constants" && r.value.1.folder == "enums"
      && r.value.0.fileName == r.value.1.fileName == NormalizeLabel(e.displayName, e.logicalName).value + ".ts"
      && r.value.0.decls == GenerateConstants(e)
      && r.value.1.decls == GenerateEnums(e.attributes).value
  {
    match NormalizeLabel(e.displayName, e.logicalName)
    case Failure(err) => Failure(err)
    case Success(entityName) =>
      var constants := Artifact("constants", entityName + ".ts", GenerateConstants(e));
      match GenerateEnums(e.attributes)
      case Failure(err) => Failure(err)
      case Success(decls) => Success((constants, Artifact("enums", entityName + ".ts", decls)))
  }

  /** The file name is the entity name with the `.ts` extension; the
      entity name is a legal identifier, and without a display name it is
      the logical name. */
  lemma EntityFileName(e: EntityMetadata)
    ensures GenerateForEntity(e).Success? ==>
      && GenerateForEntity(e).value.0.fileName == NormalizeLabel(e.displayName, e.logicalName).value + ".ts"
      && LegalIdentifier(NormalizeLabel(e.displayName, e.logicalName).value)
      && (e.displayName.None? ==> NormalizeLabel(e.displayName, e.logicalName).value == e.logicalName)
  {
  }

  /** A legal identifier holds no path separator, so both files of an
      entity land directly in their folders. */
  lemma IdentifierStaysInFolder(name: string)
    requires LegalIdentifier(name)
    ensures forall k :: 0 <= k < |name + ".ts"| ==> !IsSeparator((name + ".ts")[k])
  {
  }

  /** Entities with different names get different files, and one entity's
      two files never collide. */
  lemma PathsDistinct(outputFolder: string, e1: EntityMetadata, e2: EntityMetadata)
    ensures GenerateForEntity(e1).Success? ==>
      OutputPath(outputFolder, GenerateForEntity(e1).value.0) != OutputPath(outputFolder, GenerateForEntity(e1).value.1)
    ensures GenerateForEntity(e1).Success? && GenerateForEntity(e2).Success? &&
      NormalizeLabel(e1.displayName, e1.logicalName) != NormalizeLabel(e2.displayName, e2.logicalName)
      ==> OutputPath(outputFolder, GenerateForEntity(e1).value.0) != OutputPath(outputFolder, GenerateForEntity(e2).value.0)
  {
    if !GenerateForEntity(e1).Success? || !GenerateForEntity(e2).Success? {
      if GenerateForEntity(e1).Success? {
        var a := GenerateForEntity(e1).value;
        FoldersKeepApart(outputFolder, a.0, a.1);
      }
      return;
    }
    var a := GenerateForEntity(e1).value;
    var b := GenerateForEntity(e2).value;
    FoldersKeepApart(outputFolder, a.0, a.1);
    if a.0.fileName != b.0.fileName {
      NamesKeepApart(outputFolder, a.0, b.0);
    } else {
      assert NormalizeLabel(e1.displayName, e1.logicalName).value + ".ts" == NormalizeLabel(e2.displayName, e2.logicalName).value + ".ts";
      StemsEqual(NormalizeLabel(e1.displayName, e1.logicalName).value, NormalizeLabel(e2.displayName, e2.logicalName).value, ".ts");
    }
  }

  lemma FoldersKeepApart(outputFolder: string, a: Artifact, b: Artifact)
    requires a.folder == "constants" && b.folder == "enums"
    ensures OutputPath(outputFolder, a) != OutputPath(outputFolder, b)
  {
    assert OutputPath(outputFolder, a)[|outputFolder| + 1] == 'c';
    assert OutputPath(outputFolder, b)[|outputFolder| + 1] == 'e';
  }

  lemma NamesKeepApart(outputFolder: string, a: Artifact, b: Artifact)
    requires a.folder == b.folder && a.fileName != b.fileName
    ensures OutputPath(outputFolder, a) != OutputPath(outputFolder, b)
  {
    var pre := outputFolder + "/" + a.folder + "/";
    assert OutputPath(outputFolder, a) == pre + a.fileName;
    assert OutputPath(outputFolder, b) == pre + b.fileName;
    assert (pre + a.fileName)[|pre|..] == a.fileName;
    assert (pre + b.fileName)[|pre|..] == b.fileName;
  }

  lemma StemsEqual(x: string, y: string, ext: string)
    requires x + ext == y + ext
    ensures x == y
  {
    assert |x| == |y|;
    assert x == (x + ext)[..|x|];
    assert y == (y + ext)[..|y|];
  }
}

=== FILE: js_doc.dfy ===
/** `addJsDoc`: whether a declaration gets a documentation comment, and its
    text.
    Line numbers refer to src/index.ts. */
module JsDoc {
  import opened Wrappers
  import opened Metadata

  /** The first line of the comment: `DisplayName (LogicalName)`, or the
      logical name alone when there is no display name. */
  function Header(m: Metadata): string {
    if m.displayName.Some? then m.displayName.value + " (" + m.logicalName + ")" else m.logicalName
  }

  /** Whether the description adds a second line: present and non-empty. */
  predicate HasDescription(m: Metadata) {
    m.description.Some? && |m.description.value| > 0
  }

  /** Lines 202-223. No comment when there is no display name and the
      logical name equals the variable name; otherwise the header, followed
      on a new line by the description when it is present and non-empty. */
  function DocFor(m: Metadata): (r: Option<string>)
    ensures r.None? <==> m.displayName.None? && m.variableName == Some(m.logicalName)
    ensures r.Some? ==> |Header(m)| <= |r.value| && r.value[..|Header(m)|] == Header(m)
    ensures r.Some? ==> (|r.value| == |Header(m)| <==> !HasDescription(m))
  {
    if m.displayName.None? && m.variableName == Some(m.logicalName) then None
    else if HasDescription(m) then Some(Header(m) + "\n" + m.description.value)
    else Some(Header(m))
  }

  /** Index of the first line break in `t`, if any. */
  function FirstBreak(t: string): (r: Option<nat>)
    ensures r.Some? ==> r.value < |t| && t[r.value] == '\n'
    ensures r.Some? ==> forall k :: 0 <= k < r.value ==> t[k] != '\n'
    ensures r.None? ==> forall k :: 0 <= k < |t| ==> t[k] != '\n'
    decreases |t|
  {
    if |t| == 0 then None
    else if t[0] == '\n' then Some(0)
    else
      match FirstBreak(t[1..])
      case None => None
      case Some(j) => Some(j + 1)
  }

  /** Splits a comment at its first line break into the first line and the
      rest. */
  function SplitFirstLine(t: string): (string, Option<string>) {
    match FirstBreak(t)
    case None => (t, None)
    case Some(j) => (t[..j], Some(t[j + 1..]))
  }

  /** Reading the comment back: its first line is the header and what
      follows the first line break is the description, present exactly when
      the description is non-empty (for a header without line breaks). */
  lemma DocLines(m: Metadata)
    requires forall k :: 0 <= k < |Header(m)| ==> Header(m)[k] != '\n'
    requires DocFor(m).Some?
    ensures SplitFirstLine(DocFor(m).value)
      == (Header(m), if HasDescription(m) then Some(m.description.value) else None)
  {
    var h := Header(m);
    var t := DocFor(m).value;
    if HasDescription(m) {
      assert t == h + "\n" + m.description.value;
      assert t[|h|] == '\n';
      assert forall k :: 0 <= k < |h| ==> t[k] == h[k];
      assert FirstBreak(t) == Some(|h|) by {
        FirstBreakAt(h, m.description.value);
      }
      assert t[..|h|] == h;
      assert t[|h| + 1..] == m.description.value;
    } else {
      assert t == h;
    }
  }

  /** The first line break of `h + "\n" + d` is the one after `h`, when `h`
      has none. */
  lemma {:induction false} FirstBreakAt(h: string, d: string)
    requires forall k :: 0 <= k < |h| ==> h[k] != '\n'
    ensures FirstBreak(h + "\n" + d) == Some(|h|)
    decreases |h|
  {
    if |h| > 0 {
      assert (h + "\n" + d)[1..] == h[1..] + "\n" + d;
      FirstBreakAt(h[1..], d);
    }
  }
}

=== FILE: label_rewrite.dfy ===
/** The eleven regular-expression rewrites `normalizeLabel` applies to a
    label, one function per `replace` call (all with the `g` flag). Each
    function scans its input left to right the way the regular-expression
    engine does: it tries a match at the current position, and either
    replaces the match and continues after it, or keeps one character and
    moves on. Lookaheads and lookbehinds see the input of that pass.
    Line numbers refer to src/index.ts. */
module LabelRewrite {
  import opened Wrappers
  import opened Chars

  // ----- `\[(.+?)\]` -> `_$1_` -------------------------------------------

  /** Position of the first `]` in `t` that no line terminator precedes. */
  function FindClose(t: string): (r: Option<nat>)
    ensures r.Some? ==> r.value < |t| && t[r.value] == ']'
    ensures r.Some? ==> forall k :: 0 <= k < r.value ==> t[k] != ']' && !IsLineTerminator(t[k])
    decreases |t|
  {
    if |t| == 0 || IsLineTerminator(t[0]) then None
    else if t[0] == ']' then Some(0)
    else
      match FindClose(t[1..])
      case None => None
      case Some(j) => Some(j + 1)
  }

  /** Index of the `]` ending a match of `\[(.+?)\]` at the start of `s`:
      the lazy `.+?` takes the shortest non-empty inner text that reaches a
      `]` without crossing a line terminator. */
  function BracketMatch(s: string): (r: Option<nat>)
    ensures r.Some? ==> 2 <= r.value < |s| && s[0] == '[' && s[r.value] == ']'
    ensures r.Some? ==> forall k :: 1 <= k < r.value ==> !IsLineTerminator(s[k])
    ensures r.Some? ==> forall k :: 2 <= k < r.value ==> s[k] != ']'
  {
    if |s| >= 3 && s[0] == '[' && !IsLineTerminator(s[1]) then
      match FindClose(s[2..])
      case None => None
      case Some(j) => Some(j + 2)
    else None
  }

  /** Line 175: every bracketed span `[x]` becomes `_x_`; the brackets are
      replaced one for one, so positions are kept. */
  function ExpandBrackets(s: string): (r: string)
    ensures |r| == |s|
    ensures forall k :: 0 <= k < |s| ==> r[k] == s[k] || (r[k] == '_' && (s[k] == '[' || s[k] == ']'))
    ensures (forall k :: 0 <= k < |s| ==> s[k] != '[') ==> r == s
    decreases |s|
  {
    if |s| == 0 then []
    else
      match BracketMatch(s)
      case Some(j) =>
        var rest := ExpandBrackets(s[j + 1..]);
        PairPoints(s, j, s[j + 1..], rest);
        "_" + s[1..j] + "_" + rest
      case None => [s[0]] + ExpandBrackets(s[1..])
  }

  /** The rewrite of one bracketed span, followed by the rewrite of the
      rest, keeps positions. */
  lemma PairPoints(s: string, j: nat, t: string, rest: string)
    requires 2 <= j < |s| && s[0] == '[' && s[j] == ']' && t == s[j + 1..]
    requires |rest| == |t|
    requires forall k :: 0 <= k < |t| ==> rest[k] == t[k] || (rest[k] == '_' && (t[k] == '[' || t[k] == ']'))
    ensures var r := "_" + s[1..j] + "_" + rest;
      && |r| == |s|
      && forall k :: 0 <= k < |s| ==> r[k] == s[k] || (r[k] == '_' && (s[k] == '[' || s[k] == ']'))
  {
    var r := "_" + s[1..j] + "_" + rest;
    forall k | 0 <= k < |s|
      ensures r[k] == s[k] || (r[k] == '_' && (s[k] == '[' || s[k] == ']'))
    {
      if 0 < k < j {
        assert r[k] == s[1..j][k - 1];
      } else if k > j {
        assert r[k] == rest[k - j - 1] && s[k] == t[k - j - 1];
      }
    }
  }

  /** A character other than `[` is copied unchanged. */
  lemma ExpandPlain(c: char, t: string)
    requires c != '['
    ensures ExpandBrackets([c] + t) == [c] + ExpandBrackets(t)
  {
    assert ([c] + t)[1..] == t;
  }

  /** A closed pair of brackets at the start, on one line, is rewritten to
      underscores around its unchanged inner text. The lazy `.+?` takes at
      least one character, so the inner text may start with `]`. */
  lemma ExpandAtPair(inner: string, b: string)
    requires |inner| > 0 && !IsLineTerminator(inner[0])
    requires forall k :: 1 <= k < |inner| ==> inner[k] != ']' && !IsLineTerminator(inner[k])
    ensures ExpandBrackets("[" + inner + "]" + b) == "_" + inner + "_" + ExpandBrackets(b)
  {
    var s := "[" + inner + "]" + b;
    var n := |inner|;
    assert s[2..] == inner[1..] + "]" + b;
    FindCloseAt(inner[1..], b);
    assert BracketMatch(s) == Some(n + 1);
    assert s[1..n + 1] == inner;
    assert s[n + 2..] == b;
  }

  /** A `[` that no `]` closes on its line is copied: `line` runs to the
      end of the line (`b` is empty or starts with a line terminator) and
      holds no `]` after its first character. */
  lemma ExpandUnmatched(line: string, b: string)
    requires forall k :: 0 <= k < |line| ==> !IsLineTerminator(line[k])
    requires forall k :: 1 <= k < |line| ==> line[k] != ']'
    requires |b| > 0 ==> IsLineTerminator(b[0])
    ensures ExpandBrackets(['['] + (line + b)) == ['['] + ExpandBrackets(line + b)
  {
    var s := ['['] + (line + b);
    if |s| >= 3 && !IsLineTerminator(s[1]) {
      assert |line| > 0;
      assert s[2..] == line[1..] + b;
      FindCloseNone(line[1..], b);
    }
    assert BracketMatch(s).None?;
    assert s[1..] == line + b;
  }

  /** `FindClose` finds nothing when the line ends before any `]`. */
  lemma {:induction false} FindCloseNone(t: string, b: string)
    requires forall k :: 0 <= k < |t| ==> t[k] != ']' && !IsLineTerminator(t[k])
    requires |b| > 0 ==> IsLineTerminator(b[0])
    ensures FindClose(t + b) == None
    decreases |t|
  {
    if |t| > 0 {
      assert (t + b)[1..] == t[1..] + b;
      FindCloseNone(t[1..], b);
    } else {
      assert t + b == b;
    }
  }

  /** `FindClose` stops at the first `]`. */
  lemma {:induction false} FindCloseAt(t: string, b: string)
    requires forall k :: 0 <= k < |t| ==> t[k] != ']' && !IsLineTerminator(t[k])
    ensures FindClose(t + "]" + b) == Some(|t|)
    decreases |t|
  {
    if |t| > 0 {
      assert (t + "]" + b)[1..] == t[1..] + "]" + b;
      FindCloseAt(t[1..], b);
    }
  }

  // ----- `^\W+` -> `` ------------------------------------------------------

  /** Length of the run of non-word characters that starts `s`. */
  function LeadingSymbolCount(s: string): (n: nat)
    ensures n <= |s|
    ensures forall k :: 0 <= k < n ==> !IsWord(s[k])
    ensures n < |s| ==> IsWord(s[n])
    decreases |s|
  {
    if |s| > 0 && !IsWord(s[0]) then 1 + LeadingSymbolCount(s[1..]) else 0
  }

  /** Line 176: drops the longest prefix of non-word characters. */
  function TrimLeadingSymbols(s: string): (r: string)
    ensures |r| <= |s| && r == s[|s| - |r|..]
    ensures |r| > 0 ==> IsWord(r[0])
    ensures forall k :: 0 <= k < |s| - |r| ==> !IsWord(s[k])
  {
    s[LeadingSymbolCount(s)..]
  }

  // ----- `[^\w\-+]+$` -> `` -----------------------------------------------

  /** The characters the end-of-string trim keeps: `\w`, `-` and `+`. */
  predicate KeptAtEnd(c: char) { IsWord(c) || c == '-' || c == '+' }

  /** Length of the run of characters other than `\w`, `-` and `+` that
      ends `s`. */
  function TrailingSymbolCount(s: string): (n: nat)
    ensures n <= |s|
    ensures forall k :: |s| - n <= k < |s| ==> !KeptAtEnd(s[k])
    ensures n < |s| ==> KeptAtEnd(s[|s| - n - 1])
    decreases |s|
  {
    if |s| > 0 && !KeptAtEnd(s[|s| - 1]) then 1 + TrailingSymbolCount(s[..|s| - 1]) else 0
  }

  /** Line 177: drops the longest suffix of characters other than `\w`,
      `-` and `+`. */
  function TrimTrailingSymbols(s: string): (r: string)
    ensures |r| <= |s| && r == s[..|r|]
    ensures |r| > 0 ==> KeptAtEnd(r[|r| - 1])
    ensures forall k :: |r| <= k < |s| ==> !KeptAtEnd(s[k])
  {
    s[..|s| - TrailingSymbolCount(s)]
  }

  // ----- `['""]` -> `` ------------------------------------------------------

  predicate IsQuote(c: char) { c == '\'' || c == '"' }

  /** Line 178: removes every single and double quote. */
  function RemoveQuotes(s: string): (r: string)
    ensures |r| <= |s|
    ensures forall k :: 0 <= k < |r| ==> !IsQuote(r[k])
    ensures (forall k :: 0 <= k < |s| ==> !IsQuote(s[k])) ==> r == s
    ensures |s| > 0 && !IsQuote(s[0]) ==> |r| > 0 && r[0] == s[0]
    decreases |s|
  {
    if |s| == 0 then []
    else if IsQuote(s[0]) then RemoveQuotes(s[1..])
    else [s[0]] + RemoveQuotes(s[1..])
  }

  /** Line 178, one character: a quote is dropped, anything else is kept
      in front of the rest. */
  lemma RemoveQuotesCons(c: char, t: string)
    ensures RemoveQuotes([c] + t) == (if IsQuote(c) then [] else [c]) + RemoveQuotes(t)
  {
    assert ([c] + t)[1..] == t;
  }

  /** Line 178 works piece by piece; with `RemoveQuotesCons` this fixes the
      result: the characters other than quotes, in their order. */
  lemma {:induction false} RemoveQuotesAppend(a: string, b: string)
    ensures RemoveQuotes(a + b) == RemoveQuotes(a) + RemoveQuotes(b)
    decreases |a|
  {
    if |a| > 0 {
      assert a + b == [a[0]] + (a[1..] + b);
      RemoveQuotesCons(a[0], a[1..] + b);
      RemoveQuotesAppend(a[1..], b);
      assert a == [a[0]] + a[1..];
      RemoveQuotesCons(a[0], a[1..]);
    } else {
      assert a + b == b;
    }
  }

  // ----- `(-+?)(?!.*\w+)` -> `Minus`, `(\++?)(?!.*\w+)` -> `Plus` ---------

  /** The lookahead `.*\w+`: a word character occurs in `t` before the first
      line terminator. */
  predicate WordAhead(t: string)
    decreases |t|
  {
    |t| > 0 && !IsLineTerminator(t[0]) && (IsWord(t[0]) || WordAhead(t[1..]))
  }

  /** Lines 179 and 180: every `sign` with no word character after it on its
      line is spelled out as `word`. The lazy `sign+?` matches one sign at a
      time (a longer match has the same lookahead, so it is never needed),
      so a run of trailing signs gives one `word` per sign. */
  function SpellTrailingSign(s: string, sign: char, word: string): (r: string)
    requires !IsWord(sign) && !IsLineTerminator(sign)
    requires |word| > 0 && forall k :: 0 <= k < |word| ==> IsWord(word[k])
    ensures (forall k :: 0 <= k < |s| ==> s[k] != sign) ==> r == s
    ensures |s| > 0 && s[0] != sign ==> |r| > 0 && r[0] == s[0]
    ensures WordAhead(s) ==> WordAhead(r)
    ensures forall k :: 0 <= k < |r| && r[k] == sign ==> WordAhead(r[k + 1..])
    decreases |s|
  {
    if |s| == 0 then []
    else
      var rest := SpellTrailingSign(s[1..], sign, word);
      if s[0] == sign && !WordAhead(s[1..]) then
        var r := word + rest;
        assert forall k :: 0 <= k < |word| ==> r[k] == word[k];
        assert forall k :: |word| <= k < |r| ==> r[k] == rest[k - |word|] && r[k + 1..] == rest[k - |word| + 1..];
        r
      else
        var r := [s[0]] + rest;
        assert forall k :: 1 <= k < |r| ==> r[k + 1..] == rest[k..];
        r
  }

  function SpellTrailingMinus(s: string): string {
    SpellTrailingSign(s, '-', "Minus")
  }

  function SpellTrailingPlus(s: string): string {
    SpellTrailingSign(s, '+', "Plus")
  }

  // ----- `[^\w\s]` -> ` ` --------------------------------------------------

  /** Line 181: every character that is neither `\w` nor `\s` becomes a
      space. */
  function BlankSymbols(s: string): (r: string)
    ensures |r| == |s|
    ensures forall k :: 0 <= k < |s| ==> r[k] == if IsWord(s[k]) || IsSpace(s[k]) then s[k] else ' '
    ensures WordOrSpace(r)
    decreases |s|
  {
    if |s| == 0 then []
    else [if IsWord(s[0]) || IsSpace(s[0]) then s[0] else ' '] + BlankSymbols(s[1..])
  }

  // ----- `\b(\w)` -> upper case --------------------------------------------

  /** `\b(\w)` matches at `k`: a word character whose predecessor (or, at the
      start, the context `afterWord`) is not a word character. */
  predicate WordStart(s: string, k: nat, afterWord: bool)
    requires k < |s|
  {
    IsWord(s[k]) && !(if k == 0 then afterWord else IsWord(s[k - 1]))
  }

  /** Line 182: upper-cases the first character of every word; `afterWord`
      says whether the character before `s` was a word character. */
  function CapitalizeWords(s: string, afterWord: bool): (r: string)
    ensures |r| == |s|
    ensures forall k :: 0 <= k < |s| ==> r[k] == if WordStart(s, k, afterWord) then ToUpper(s[k]) else s[k]
    ensures WordOrSpace(s) ==> WordOrSpace(r)
    decreases |s|
  {
    if |s| == 0 then []
    else
      var r := [if IsWord(s[0]) && !afterWord then ToUpper(s[0]) else s[0]]
        + CapitalizeWords(s[1..], IsWord(s[0]));
      assert forall k :: 1 <= k < |s| ==> (WordStart(s, k, afterWord) <==> WordStart(s[1..], k - 1, IsWord(s[0])));
      r
  }

  // ----- `(\d+)(?:\s+)\b` -> `$1_` and `\b(?:\s+)(\d+)` -> `_$1` ---------

  /** Length of the run of digits that starts `s`. */
  function DigitRun(s: string): (n: nat)
    ensures n <= |s|
    ensures forall k :: 0 <= k < n ==> IsDigit(s[k])
    ensures n < |s| ==> !IsDigit(s[n])
    decreases |s|
  {
    if |s| > 0 && IsDigit(s[0]) then 1 + DigitRun(s[1..]) else 0
  }

  /** Length of the run of whitespace that starts `s`. */
  function SpaceRun(s: string): (n: nat)
    ensures n <= |s|
    ensures forall k :: 0 <= k < n ==> IsSpace(s[k])
    ensures n < |s| ==> !IsSpace(s[n])
    decreases |s|
  {
    if |s| > 0 && IsSpace(s[0]) then 1 + SpaceRun(s[1..]) else 0
  }

  /** A match of `(\d+)(?:\s+)\b` at the start of `s`, as the pair (end of
      the digits, end of the whitespace). Backtracking cannot help: a
      shorter digit run is followed by a digit, and a shorter whitespace run
      puts `\b` between two whitespace characters. */
  function NumberGapMatch(s: string): (r: Option<(nat, nat)>)
    ensures r.Some? ==> 0 < r.value.0 < r.value.1 < |s|
    ensures r.Some? ==> forall k :: 0 <= k < r.value.0 ==> IsDigit(s[k])
    ensures r.Some? ==> forall k :: r.value.0 <= k < r.value.1 ==> IsSpace(s[k])
    ensures r.Some? ==> IsWord(s[r.value.1])
  {
    var j := DigitRun(s);
    if 0 < j < |s| then
      var k := j + SpaceRun(s[j..]);
      if j < k < |s| && IsWord(s[k]) then Some((j, k)) else None
    else None
  }

  /** Line 183: the whitespace between a number and the next word becomes
      one underscore. */
  function JoinAfterNumbers(s: string): (r: string)
    ensures NoSpace(s) ==> r == s
    ensures |s| > 0 ==> |r| > 0 && r[0] == s[0]
    decreases |s|
  {
    if |s| == 0 then []
    else
      match NumberGapMatch(s)
      case Some((j, k)) =>
        assert IsSpace(s[j]);
        s[..j] + "_" + JoinAfterNumbers(s[k..])
      case None => [s[0]] + JoinAfterNumbers(s[1..])
  }

  /** A match of `\b(?:\s+)(\d+)` at the start of `s`, as the pair (end of
      the whitespace, end of the digits); `afterWord` says whether the
      character before `s` is a word character, which `\b` needs since the
      match starts with whitespace. */
  function NumberLeadMatch(s: string, afterWord: bool): (r: Option<(nat, nat)>)
    ensures r.Some? ==> afterWord && 0 < r.value.0 < r.value.1 <= |s|
    ensures r.Some? ==> forall k :: 0 <= k < r.value.0 ==> IsSpace(s[k])
    ensures r.Some? ==> forall k :: r.value.0 <= k < r.value.1 ==> IsDigit(s[k])
    ensures r.Some? ==> r.value.1 < |s| ==> !IsDigit(s[r.value.1])
  {
    var k := SpaceRun(s);
    if afterWord && 0 < k < |s| && IsDigit(s[k]) then
      var m := k + DigitRun(s[k..]);
      assert m < |s| ==> s[m] == s[k..][m - k];
      Some((k, m))
    else None
  }

  /** Line 184: the whitespace between a word and a following number
      becomes one underscore. */
  function JoinBeforeNumbers(s: string, afterWord: bool): (r: string)
    ensures NoSpace(s) ==> r == s
    ensures |s| > 0 && !(afterWord && IsSpace(s[0])) ==> |r| > 0 && r[0] == s[0]
    decreases |s|
  {
    if |s| == 0 then []
    else
      match NumberLeadMatch(s, afterWord)
      case Some((k, m)) =>
        assert IsSpace(s[0]);
        "_" + s[k..m] + JoinBeforeNumbers(s[m..], true)
      case None => [s[0]] + JoinBeforeNumbers(s[1..], IsWord(s[0]))
  }

  /** Line 183 introduces no character other than `_`. */
  lemma {:induction false} JoinAfterNumbersClass(s: string)
    requires WordOrSpace(s)
    ensures WordOrSpace(JoinAfterNumbers(s))
    decreases |s|
  {
    if |s| > 0 {
      match NumberGapMatch(s)
      case Some((j, k)) =>
        WordOrSpaceSlice(s, 0, j);
        WordOrSpaceSlice(s, k, |s|);
        JoinAfterNumbersClass(s[k..]);
        WordOrSpaceAppend(s[..j], "_");
        WordOrSpaceAppend(s[..j] + "_", JoinAfterNumbers(s[k..]));
      case None =>
        WordOrSpaceSlice(s, 1, |s|);
        JoinAfterNumbersClass(s[1..]);
        WordOrSpaceAppend([s[0]], JoinAfterNumbers(s[1..]));
    }
  }

  /** Line 184 introduces no character other than `_`. */
  lemma {:induction false} JoinBeforeNumbersClass(s: string, afterWord: bool)
    requires WordOrSpace(s)
    ensures WordOrSpace(JoinBeforeNumbers(s, afterWord))
    decreases |s|
  {
    if |s| > 0 {
      match NumberLeadMatch(s, afterWord)
      case Some((k, m)) =>
        WordOrSpaceSlice(s, k, m);
        WordOrSpaceSlice(s, m, |s|);
        JoinBeforeNumbersClass(s[m..], true);
        WordOrSpaceAppend("_", s[k..m]);
        WordOrSpaceAppend("_" + s[k..m], JoinBeforeNumbers(s[m..], true));
      case None =>
        WordOrSpaceSlice(s, 1, |s|);
        JoinBeforeNumbersClass(s[1..], IsWord(s[0]));
        WordOrSpaceAppend([s[0]], JoinBeforeNumbers(s[1..], IsWord(s[0])));
    }
  }

  /** What is left of a string once whitespace and underscores are
      dropped; the joining rewrites keep it. */
  function Skeleton(s: string): string
    decreases |s|
  {
    if |s| == 0 then []
    else (if IsSpace(s[0]) || s[0] == '_' then [] else [s[0]]) + Skeleton(s[1..])
  }

  lemma {:induction false} SkeletonAppend(a: string, b: string)
    ensures Skeleton(a + b) == Skeleton(a) + Skeleton(b)
    decreases |a|
  {
    if |a| > 0 {
      assert (a + b)[1..] == a[1..] + b;
      SkeletonAppend(a[1..], b);
    } else {
      assert a + b == b;
    }
  }

  lemma {:induction false} SkeletonOfSpaces(s: string)
    requires forall k :: 0 <= k < |s| ==> IsSpace(s[k])
    ensures Skeleton(s) == []
    decreases |s|
  {
    if |s| > 0 {
      SkeletonOfSpaces(s[1..]);
    }
  }

  /** Splits `s` at `i` and `j` for `Skeleton`. */
  lemma SkeletonSplit(s: string, i: nat, j: nat)
    requires i <= j <= |s|
    ensures Skeleton(s) == Skeleton(s[..i]) + Skeleton(s[i..j]) + Skeleton(s[j..])
  {
    SplitThree(s, i, j);
    SkeletonAppend(s[..i] + s[i..j], s[j..]);
    SkeletonAppend(s[..i], s[i..j]);
  }

  lemma SplitThree(s: string, i: nat, j: nat)
    requires i <= j <= |s|
    ensures s == s[..i] + s[i..j] + s[j..]
  {
  }

  /** Line 183 keeps every character other than whitespace and `_`, in
      order. */
  lemma {:induction false} JoinAfterNumbersSkeleton(s: string)
    ensures Skeleton(JoinAfterNumbers(s)) == Skeleton(s)
    decreases |s|
  {
    if |s| > 0 {
      match NumberGapMatch(s)
      case Some((j, k)) =>
        JoinAfterNumbersSkeleton(s[k..]);
        SkeletonAppend(s[..j] + "_", JoinAfterNumbers(s[k..]));
        SkeletonAppend(s[..j], "_");
        SkeletonSplit(s, j, k);
        SkeletonOfSpaces(s[j..k]);
      case None =>
        JoinAfterNumbersSkeleton(s[1..]);
        SkeletonAppend([s[0]], JoinAfterNumbers(s[1..]));
    }
  }

  /** Line 184 keeps every character other than whitespace and `_`, in
      order. */
  lemma {:induction false} JoinBeforeNumbersSkeleton(s: string, afterWord: bool)
    ensures Skeleton(JoinBeforeNumbers(s, afterWord)) == Skeleton(s)
    decreases |s|
  {
    if |s| > 0 {
      match NumberLeadMatch(s, afterWord)
      case Some((k, m)) =>
        JoinBeforeNumbersSkeleton(s[m..], true);
        SkeletonAppend("_" + s[k..m], JoinBeforeNumbers(s[m..], true));
        SkeletonAppend("_", s[k..m]);
        SkeletonSplit(s, k, m);
        assert s[..k] == s[0..k];
        SkeletonOfSpaces(s[..k]);
      case None =>
        JoinBeforeNumbersSkeleton(s[1..], IsWord(s[0]));
        SkeletonAppend([s[0]], JoinBeforeNumbers(s[1..], IsWord(s[0])));
    }
  }

  // ----- `\s` -> `` ----------------------------------------------------------

  /** Line 185: removes every whitespace character. */
  function RemoveSpaces(s: string): (r: string)
    ensures NoSpace(r)
    ensures WordOrSpace(s) ==> AllWord(r)
    ensures NoSpace(s) ==> r == s
    ensures |s| > 0 && !IsSpace(s[0]) ==> |r| > 0 && r[0] == s[0]
    decreases |s|
  {
    if |s| == 0 then []
    else if IsSpace(s[0]) then RemoveSpaces(s[1..])
    else [s[0]] + RemoveSpaces(s[1..])
  }

  /** Line 185 keeps every character other than whitespace and `_`, in
      order. */
  lemma {:induction false} RemoveSpacesSkeleton(s: string)
    ensures Skeleton(RemoveSpaces(s)) == Skeleton(s)
    decreases |s|
  {
    if |s| > 0 {
      RemoveSpacesSkeleton(s[1..]);
      if !IsSpace(s[0]) {
        SkeletonAppend([s[0]], RemoveSpaces(s[1..]));
      }
    }
  }

  // ----- the chain ----------------------------------------------------------

  /** Lines 175-180: the rewrites that trim and clean the label. */
  function CleanLabel(text: string): string {
    SpellTrailingPlus(SpellTrailingMinus(RemoveQuotes(TrimTrailingSymbols(TrimLeadingSymbols(ExpandBrackets(text))))))
  }

  /** Lines 181-185: the rewrites that leave word characters only. */
  function JoinWords(s: string): (r: string)
    ensures AllWord(r)
  {
    var s8 := CapitalizeWords(BlankSymbols(s), false);
    JoinAfterNumbersClass(s8);
    JoinBeforeNumbersClass(JoinAfterNumbers(s8), false);
    RemoveSpaces(JoinBeforeNumbers(JoinAfterNumbers(s8), false))
  }

  /** Lines 183-185 keep every character other than whitespace and
      underscores, in order: the identifier is the capitalized label with
      its whitespace dropped or turned into underscores. */
  lemma JoinWordsSkeleton(s: string)
    ensures Skeleton(JoinWords(s)) == Skeleton(CapitalizeWords(BlankSymbols(s), false))
  {
    var s8 := CapitalizeWords(BlankSymbols(s), false);
    var s9 := JoinAfterNumbers(s8);
    var s10 := JoinBeforeNumbers(s9, false);
    JoinAfterNumbersSkeleton(s8);
    JoinBeforeNumbersSkeleton(s9, false);
    RemoveSpacesSkeleton(s10);
  }

  /** Lines 174-185: the eleven rewrites in order; only word characters
      remain. */
  function Rewrite(text: string): (r: string)
    ensures AllWord(r)
  {
    JoinWords(CleanLabel(text))
  }

  /** Some character of `s` is a word character. */
  predicate HasWord(s: string) {
    exists k :: 0 <= k < |s| && IsWord(s[k])
  }

  /** Line 176 leaves something exactly when there is a word character. */
  lemma TrimLeadingKeepsWord(s: string)
    ensures HasWord(s) <==> |TrimLeadingSymbols(s)| > 0
  {
    var r := TrimLeadingSymbols(s);
    if |r| > 0 {
      assert IsWord(s[|s| - |r|]);
    }
  }

  /** Lines 177-180 keep a leading word character and the empty string. */
  lemma CleanTailStart(s: string)
    ensures var r := SpellTrailingPlus(SpellTrailingMinus(RemoveQuotes(TrimTrailingSymbols(s))));
      && (|s| == 0 ==> r == [])
      && (|s| > 0 && IsWord(s[0]) ==> |r| > 0 && r[0] == s[0])
  {
    var s3 := TrimTrailingSymbols(s);
    var s4 := RemoveQuotes(s3);
    var s5 := SpellTrailingMinus(s4);
    if |s| > 0 && IsWord(s[0]) {
      assert |s3| > 0 && s3[0] == s[0];
      assert |s4| > 0 && s4[0] == s3[0];
      assert |s5| > 0 && s5[0] == s4[0];
    }
  }

  /** The cleaned label is empty exactly when the bracket rewrite leaves no
      word character; otherwise it starts with the first one. */
  lemma CleanLabelStart(text: string)
    ensures var r := CleanLabel(text);
      && (|r| == 0 <==> !HasWord(ExpandBrackets(text)))
      && (|r| > 0 ==> r[0] == TrimLeadingSymbols(ExpandBrackets(text))[0])
  {
    TrimLeadingKeepsWord(ExpandBrackets(text));
    CleanTailStart(TrimLeadingSymbols(ExpandBrackets(text)));
  }

  /** Joining keeps a leading word character, upper-cased, and maps the
      empty string to itself. */
  lemma JoinWordsStart(s: string)
    ensures |s| == 0 ==> JoinWords(s) == []
    ensures |s| > 0 && IsWord(s[0]) ==> |JoinWords(s)| > 0 && JoinWords(s)[0] == ToUpper(s[0])
  {
    if |s| > 0 && IsWord(s[0]) {
      CapitalizedStart(s);
      JoinedStart(CapitalizeWords(BlankSymbols(s), false));
    }
  }

  lemma CapitalizedStart(s: string)
    requires |s| > 0 && IsWord(s[0])
    ensures var t := CapitalizeWords(BlankSymbols(s), false); |t| > 0 && t[0] == ToUpper(s[0])
  {
    assert BlankSymbols(s)[0] == s[0];
  }

  lemma JoinedStart(t: string)
    requires |t| > 0 && IsWord(t[0])
    ensures var r := RemoveSpaces(JoinBeforeNumbers(JoinAfterNumbers(t), false)); |r| > 0 && r[0] == t[0]
  {
    var a := JoinAfterNumbers(t);
    assert |a| > 0 && a[0] == t[0];
    var b := JoinBeforeNumbers(a, false);
    assert |b| > 0 && b[0] == t[0];
    assert !IsSpace(b[0]);
  }

  /** The whole chain is empty exactly when the bracket rewrite leaves no
      word character; otherwise it starts with that first word character,
      upper-cased. */
  lemma RewriteStart(text: string)
    ensures var r := Rewrite(text);
      && (|r| == 0 <==> !HasWord(ExpandBrackets(text)))
      && (|r| > 0 ==> r[0] == ToUpper(TrimLeadingSymbols(ExpandBrackets(text))[0]))
  {
    CleanLabelStart(text);
    JoinWordsStart(CleanLabel(text));
  }

  // ----- strings the chain leaves alone --------------------------------------

  lemma AllWordNoSpace(s: string)
    requires AllWord(s)
    ensures NoSpace(s) && WordOrSpace(s)
  {
  }

  /** Line 175 leaves a string of word characters unchanged. */
  lemma ExpandFixesWords(s: string)
    requires AllWord(s)
    ensures ExpandBrackets(s) == s
  {
    assert forall k :: 0 <= k < |s| ==> s[k] != '[';
  }

  /** Lines 176-178 leave a string of word characters unchanged. */
  lemma TrimFixesWords(s: string)
    requires AllWord(s)
    ensures RemoveQuotes(TrimTrailingSymbols(TrimLeadingSymbols(s))) == s
  {
    assert forall k :: 0 <= k < |s| ==> !IsQuote(s[k]);
  }

  /** Lines 179-180 leave a string of word characters unchanged. */
  lemma SpellFixesWords(s: string)
    requires AllWord(s)
    ensures SpellTrailingPlus(SpellTrailingMinus(s)) == s
  {
    assert forall k :: 0 <= k < |s| ==> s[k] != '-' && s[k] != '+';
  }

  /** Lines 175-180 leave a string of word characters unchanged. */
  lemma CleanLabelFixesWords(s: string)
    requires AllWord(s)
    ensures CleanLabel(s) == s
  {
    ExpandFixesWords(s);
    TrimFixesWords(s);
    SpellFixesWords(s);
  }

  /** Line 182 leaves a string of word characters unchanged when its first
      character is not a lower-case letter. */
  lemma CapitalizeFixesWords(s: string)
    requires AllWord(s) && (|s| > 0 ==> !IsLower(s[0]))
    ensures CapitalizeWords(s, false) == s
  {
    var r := CapitalizeWords(s, false);
    forall k | 0 <= k < |s| ensures r[k] == s[k] {
      if k == 0 {
        assert r[0] == ToUpper(s[0]);
      } else {
        assert !WordStart(s, k, false);
      }
    }
  }

  /** Lines 181-185 leave a string of word characters unchanged when its
      first character is not a lower-case letter. */
  lemma JoinWordsFixesWords(s: string)
    requires AllWord(s) && (|s| > 0 ==> !IsLower(s[0]))
    ensures JoinWords(s) == s
  {
    AllWordNoSpace(s);
    assert BlankSymbols(s) == s;
    CapitalizeFixesWords(s);
    assert JoinAfterNumbers(s) == s;
    assert JoinBeforeNumbers(s, false) == s;
  }

  /** The whole chain leaves a string of word characters unchanged when its
      first character is not a lower-case letter. */
  lemma RewriteFixesWords(s: string)
    requires AllWord(s) && (|s| > 0 ==> !IsLower(s[0]))
    ensures Rewrite(s) == s
  {
    CleanLabelFixesWords(s);
    JoinWordsFixesWords(s);
  }
}

=== FILE: metadata.dfy ===
/** The metadata records the generator reads: entities, their attributes and
    the options of choice-valued attributes. */
module Metadata {
  import opened Wrappers

  /** The attribute type tags, in declaration order; the numeric code of a
      tag is its position in this list. */
  datatype AttributeTypeCode =
    | Boolean | Customer | DateTime | Decimal | Double | Integer | Lookup
    | Memo | Money | Owner | PartyList | Picklist | State | Status | String
    | Uniqueidentifier | CalendarRules | Virtual | BigInt | ManagedProperty
    | EntityName

  const AllTypeCodes: seq<AttributeTypeCode> := [
    Boolean, Customer, DateTime, Decimal, Double, Integer, Lookup,
    Memo, Money, Owner, PartyList, Picklist, State, Status, String,
    Uniqueidentifier, CalendarRules, Virtual, BigInt, ManagedProperty,
    EntityName
  ]

  /** The numeric value of a tag in the `const enum`. */
  function Code(t: AttributeTypeCode): (n: nat)
    ensures n < |AllTypeCodes| && AllTypeCodes[n] == t
  {
    match t
    case Boolean => 0
    case Customer => 1
    case DateTime => 2
    case Decimal => 3
    case Double => 4
    case Integer => 5
    case Lookup => 6
    case Memo => 7
    case Money => 8
    case Owner => 9
    case PartyList => 10
    case Picklist => 11
    case State => 12
    case Status => 13
    case String => 14
    case Uniqueidentifier => 15
    case CalendarRules => 16
    case Virtual => 17
    case BigInt => 18
    case ManagedProperty => 19
    case EntityName => 20
  }

  /** The tag a numeric code in a metadata file stands for, if any. */
  function FromCode(n: int): (t: Option<AttributeTypeCode>)
    ensures t.Some? <==> 0 <= n < 21
    ensures t.Some? ==> Code(t.value) == n
  {
    if 0 <= n < |AllTypeCodes| then
      CodesDistinct(n);
      Some(AllTypeCodes[n])
    else None
  }

  /** Different positions of the tag list hold different tags. */
  lemma CodesDistinct(n: nat)
    requires n < |AllTypeCodes|
    ensures Code(AllTypeCodes[n]) == n
  {
  }

  /** The tag set is closed: every tag has a code below 21 and reading the
      code back gives the same tag. */
  lemma CodeRoundTrip(t: AttributeTypeCode)
    ensures 0 <= Code(t) < 21 && FromCode(Code(t)) == Some(t)
  {
  }

  /** Fields shared by every metadata record (the `Metadata` interface). */
  datatype Metadata = Metadata(
    logicalName: string,
    variableName: Option<string>,
    displayName: Option<string>,
    description: Option<string>)

  /** One discrete value of a choice-valued attribute: its `Label` (here
      `caption`, since `label` is a Dafny keyword) and its numeric `Value`. */
  datatype OptionMetadata = OptionMetadata(caption: string, value: int)

  /** A field of an entity; its variable name is always present. */
  datatype AttributeMetadata = AttributeMetadata(
    logicalName: string,
    variableName: string,
    displayName: Option<string>,
    description: Option<string>,
    attributeType: Option<AttributeTypeCode>,
    options: Option<seq<OptionMetadata>>)
  {
    /** The attribute seen through the shared `Metadata` fields. */
    function Base(): Metadata {
      Metadata(logicalName, Some(variableName), displayName, description)
    }
  }

  /** An entity and its ordered attributes. */
  datatype EntityMetadata = EntityMetadata(
    logicalName: string,
    variableName: Option<string>,
    displayName: Option<string>,
    description: Option<string>,
    attributes: seq<AttributeMetadata>)
  {
    /** The entity seen through the shared `Metadata` fields. */
    function Base(): Metadata {
      Metadata(logicalName, variableName, displayName, description)
    }
  }
}

=== FILE: normalizer.dfy ===
/** `normalizeLabel`: a free-form label and a fallback become a legal
    TypeScript identifier.
    Line numbers refer to src/index.ts. */
module Normalizer {
  import opened Wrappers
  import opened Chars
  import opened LabelRewrite

  /** The two errors `normalizeLabel` throws about its fallback. */
  datatype NormalizeError =
    | EmptyFallback
    | InvalidFallback(fallback: string)

  /** The error a bad fallback raises: the emptiness check comes first. */
  function FallbackError(fallback: string): NormalizeError {
    if |fallback| == 0 then EmptyFallback else InvalidFallback(fallback)
  }

  /** Lines 187-195: an empty rewrite gives the fallback, and a rewrite
      that starts with a digit gets a leading underscore. */
  function Finish(result: string, fallback: string): (r: string)
    requires AllWord(result) && LegalIdentifier(fallback)
    ensures LegalIdentifier(r)
    ensures |result| == 0 ==> r == fallback
    ensures |result| > 0 && IsDigit(result[0]) ==> r == "_" + result
    ensures |result| > 0 && !IsDigit(result[0]) ==> r == result
    ensures |result| > 0 ==> AllWord(r) && !IsDigit(r[0])
    ensures |result| > 0 && !IsLower(result[0]) ==> !IsLower(r[0])
  {
    if |result| == 0 then fallback
    else if IsDigit(result[0]) then
      UnderscorePrefix(result);
      "_" + result
    else
      WordsAreIdentifier(result);
      result
  }

  /** Lines 160-196. The fallback is checked before the label is looked at;
      a missing or empty label gives the fallback; otherwise the label is
      rewritten and finished. */
  function NormalizeLabel(caption: Option<string>, fallback: string): (r: Result<string, NormalizeError>)
    ensures r.Failure? <==> !LegalIdentifier(fallback)
    ensures r.Failure? ==> r.error == FallbackError(fallback)
    ensures r.Success? ==> LegalIdentifier(r.value)
    ensures r.Success? && r.value != fallback ==> AllWord(r.value)
    ensures r.Success? && (caption.None? || caption.value == []) ==> r.value == fallback
  {
    if |fallback| == 0 then Failure(EmptyFallback)
    else if !LegalIdentifier(fallback) then Failure(InvalidFallback(fallback))
    else if caption.None? || |caption.value| == 0 then Success(fallback)
    else Success(Finish(Rewrite(caption.value), fallback))
  }

  /** A string `NormalizeLabel` maps to itself: word characters only, not
      starting with a digit or a lower-case letter. */
  predicate Normalized(s: string) {
    && |s| > 0
    && AllWord(s)
    && !IsDigit(s[0]) && !IsLower(s[0])
  }

  /** A label takes the fallback branch exactly when no word character
      survives the bracket rewrite; otherwise the result is `Normalized`. */
  lemma LabelOrFallback(text: string, fallback: string)
    requires LegalIdentifier(fallback) && |text| > 0
    ensures !HasWord(ExpandBrackets(text)) ==> NormalizeLabel(Some(text), fallback) == Success(fallback)
    ensures HasWord(ExpandBrackets(text)) ==> Normalized(NormalizeLabel(Some(text), fallback).value)
  {
    RewriteStart(text);
    var result := Rewrite(text);
    assert NormalizeLabel(Some(text), fallback) == Success(Finish(result, fallback));
    if |result| > 0 {
      assert !IsLower(result[0]);
      FinishNormalized(result, fallback);
    }
  }

  lemma FinishNormalized(result: string, fallback: string)
    requires AllWord(result) && |result| > 0 && !IsLower(result[0]) && LegalIdentifier(fallback)
    ensures Normalized(Finish(result, fallback))
  {
  }

  /** A normalized identifier is its own normalization, whatever the
      fallback. */
  lemma NormalizedIsFixedPoint(s: string, fallback: string)
    requires Normalized(s) && LegalIdentifier(fallback)
    ensures NormalizeLabel(Some(s), fallback) == Success(s)
  {
    RewriteFixesWords(s);
  }

  /** Normalizing twice is normalizing once, unless the first call fell
      back to a fallback that is not itself normalized. */
  lemma {:induction false} NormalizeIdempotent(caption: Option<string>, fallback: string, fallback2: string)
    requires LegalIdentifier(fallback) && LegalIdentifier(fallback2)
    ensures var r := NormalizeLabel(caption, fallback).value;
      r != fallback || Normalized(fallback) ==> NormalizeLabel(Some(r), fallback2) == Success(r)
  {
    var r := NormalizeLabel(caption, fallback).value;
    if r != fallback {
      LabelOrFallback(caption.value, fallback);
      NormalizedIsFixedPoint(r, fallback2);
    } else if Normalized(fallback) {
      NormalizedIsFixedPoint(r, fallback2);
    }
  }
}

=== FILE: number_text.dfy ===
/** Decimal text of an option value (`Number.prototype.toString` on an
    integer), used to build the fallback member name `"_" + value`. */
module NumberText {
  import opened Chars

  function DigitChar(d: nat): (c: char)
    requires d < 10
    ensures IsDigit(c)
  {
    ('0' as int + d) as char
  }

  function DigitValue(c: char): nat
    requires IsDigit(c)
  {
    c as int - '0' as int
  }

  /** Decimal digits of `n`, most significant first, without leading zeros. */
  function NatToString(n: nat): (s: string)
    ensures |s| > 0
    ensures forall k :: 0 <= k < |s| ==> IsDigit(s[k])
    ensures s[0] == '0' ==> n == 0
    decreases n
  {
    if n < 10 then [DigitChar(n)] else NatToString(n / 10) + [DigitChar(n % 10)]
  }

  /** Reads a string of decimal digits back as a number. */
  function ParseDigits(s: string): nat
    requires forall k :: 0 <= k < |s| ==> IsDigit(s[k])
  {
    if |s| == 0 then 0 else ParseDigits(s[..|s| - 1]) * 10 + DigitValue(s[|s| - 1])
  }

  /** The digits of `n` read back give `n`. */
  lemma {:induction false} ParseNatToString(n: nat)
    ensures ParseDigits(NatToString(n)) == n
    decreases n
  {
    var s := NatToString(n);
    if n >= 10 {
      ParseNatToString(n / 10);
      assert s[..|s| - 1] == NatToString(n / 10);
    }
  }

  /** `value.toString()` for an integer value. */
  function IntToString(v: int): (s: string)
    ensures |s| > 0
    ensures v < 0 <==> s[0] == '-'
    ensures v >= 0 ==> forall k :: 0 <= k < |s| ==> IsDigit(s[k])
  {
    if v < 0 then "-" + NatToString(-v) else NatToString(v)
  }

  /** Distinct values have distinct decimal texts. */
  lemma IntToStringInjective(v: int, w: int)
    requires IntToString(v) == IntToString(w)
    ensures v == w
  {
    if v < 0 {
      assert NatToString(-v) == IntToString(v)[1..];
      ParseNatToString(-v);
      ParseNatToString(-w);
    } else {
      ParseNatToString(v);
      ParseNatToString(w);
    }
  }

  /** Distinct values get distinct fallback member names. */
  lemma ValueFallbackInjective(v: int, w: int)
    requires ValueFallback(v) == ValueFallback(w)
    ensures v == w
  {
    assert IntToString(v) == ValueFallback(v)[1..];
    assert IntToString(w) == ValueFallback(w)[1..];
    IntToStringInjective(v, w);
  }

  /** The fallback name of an enum member: `"_" + option.Value.toString()`. */
  function ValueFallback(v: int): (s: string)
    ensures LegalIdentifier(s) <==> v >= 0
    ensures |s| >= 2 && s[0] == '_'
  {
    var s := "_" + IntToString(v);
    assert v < 0 ==> !IsIdentPart(s[1]);
    s
  }
}

=== FILE: planner.dfy ===
/** `generateEnums` and `generateEnum`: which attributes become a const enum
    or a Boolean class, and the members those get.
    Line numbers refer to src/index.ts. */
module Planner {
  import opened Wrappers
  import opened Chars
  import opened NumberText
  import opened Metadata
  import opened Normalizer
  import opened JsDoc
  import opened Declarations
  import opened Seqs

  /** Lines 148-157: the member for one option, named by normalizing its
      label with `_<Value>` as fallback. A negative value makes that fallback illegal,
      which aborts the generation. */
  function EnumMemberFor(o: OptionMetadata): (r: Result<EnumMember, NormalizeError>)
    ensures r.Failure? <==> o.value < 0
    ensures r.Failure? ==> r.error == InvalidFallback(ValueFallback(o.value))
    ensures r.Success? ==> r.value.value == o.value && r.value.doc == o.caption
    ensures r.Success? ==> LegalIdentifier(r.value.name)
    ensures r.Success? && o.caption == [] ==> r.value.name == ValueFallback(o.value)
    ensures r.Success? ==> r.value.name == NormalizeLabel(Some(o.caption), ValueFallback(o.value)).value
  {
    match NormalizeLabel(Some(o.caption), ValueFallback(o.value))
    case Failure(e) => Failure(e)
    case Success(n) => Success(EnumMember(n, o.value, o.caption))
  }

  /** Lines 135-158: a const enum named `enumName` with one member per
      option, in order, documented like the attribute; nothing when the
      attribute has no options. */
  function GenerateEnum(enumName: string, a: AttributeMetadata): (r: Result<Option<Decl>, NormalizeError>)
    ensures a.options.None? ==> r == Success(None)
    ensures a.options.Some? ==> (r.Success? <==> forall i :: 0 <= i < |a.options.value| ==> a.options.value[i].value >= 0)
    ensures a.options.Some? && r.Success? ==>
      && r.value.Some? && r.value.value.ConstEnum?
      && r.value.value.name == enumName
      && r.value.value.doc == DocFor(a.Base())
      && |r.value.value.members| == |a.options.value|
      && forall i :: 0 <= i < |a.options.value| ==>
           r.value.value.members[i].value == a.options.value[i].value
           && r.value.value.members[i].doc == a.options.value[i].caption
           && LegalIdentifier(r.value.value.members[i].name)
           && r.value.value.members[i] == EnumMemberFor(a.options.value[i]).value
  {
    match a.options
    case None => Success(None)
    case Some(opts) =>
      match MapAll(opts, EnumMemberFor)
      case Failure(e) => Failure(e)
      case Success(members) => Success(Some(ConstEnum(enumName, members, DocFor(a.Base()))))
  }

  /** The display-name openings that already read as a question, so that
      no `Is` prefix is added (lines 99-104). */
  const QuestionWords: seq<string> := ["Is ", "Are ", "Has ", "Have ", "Do ", "Does "]

  predicate StartsWith(s: string, p: string) {
    |p| <= |s| && s[..|p|] == p
  }

  /** Lines 97-111: the Boolean class name gets an `Is` prefix unless the
      normalized name starts with `_` or the display name already starts
      with one of the question words. */
  function BooleanClassName(className: string, displayName: string): (r: string)
    ensures r == className <==> StartsWith(className, "_") || exists w :: w in QuestionWords && StartsWith(displayName, w)
    ensures r != className ==> r == "Is" + className
    ensures LegalIdentifier(className) ==> LegalIdentifier(r)
  {
    if !StartsWith(className, "_")
       && !StartsWith(displayName, "Is ") && !StartsWith(displayName, "Are ")
       && !StartsWith(displayName, "Has ") && !StartsWith(displayName, "Have ")
       && !StartsWith(displayName, "Do ") && !StartsWith(displayName, "Does ")
    then
      assert |"Is" + className| != |className|;
      "Is" + className
    else className
  }

  /** Lines 115-127: one property per option, `true` exactly for the value
      1, named by normalizing the label with `Yes` or `No` as fallback,
      which cannot fail. */
  function FlagPropertyFor(o: OptionMetadata): (r: FlagProperty)
    ensures r.value <==> o.value == 1
    ensures r.doc == o.caption
    ensures LegalIdentifier(r.name)
    ensures o.caption == [] ==> r.name == (if o.value == 1 then "Yes" else "No")
    ensures NormalizeLabel(Some(o.caption), if o.value == 1 then "Yes" else "No") == Success(r.name)
  {
    var fallback := if o.value == 1 then "Yes" else "No";
    assert LegalIdentifier(fallback);
    FlagProperty(NormalizeLabel(Some(o.caption), fallback).value, o.value == 1, o.caption)
  }

  function FlagProperties(opts: seq<OptionMetadata>): (r: seq<FlagProperty>)
    ensures |r| == |opts|
    ensures forall i :: 0 <= i < |opts| ==> r[i] == FlagPropertyFor(opts[i])
  {
    seq(|opts|, i requires 0 <= i < |opts| => FlagPropertyFor(opts[i]))
  }

  /** Lines 96-128: the Boolean class of an attribute with options. */
  function BooleanClass(a: AttributeMetadata, className: string): (r: Decl)
    requires a.options.Some? && LegalIdentifier(className)
    ensures r.FlagClass? && WellNamed(r)
    ensures r.name == BooleanClassName(className, a.displayName.GetOr(""))
    ensures r.properties == FlagProperties(a.options.value)
    ensures r.doc == DocFor(a.Base())
  {
    var props := FlagProperties(a.options.value);
    assert forall k :: 0 <= k < |props| ==> LegalIdentifier(props[k].name);
    FlagClass(BooleanClassName(className, a.displayName.GetOr("")), props, DocFor(a.Base()))
  }

  /** The attribute types that produce a declaration. */
  const GeneratedTypes: set<Option<AttributeTypeCode>> := {Some(Picklist), Some(State), Some(Status), Some(Boolean)}

  /** The types that produce a const enum. */
  const EnumTypes: set<Option<AttributeTypeCode>> := {Some(Picklist), Some(State), Some(Status)}

  /** Lines 84-94: the enum name of a Picklist is its class name; State
      and Status attributes always give `StateCode` and `StatusCode`. */
  function EnumName(t: AttributeTypeCode, className: string): (r: string)
    requires Some(t) in EnumTypes && LegalIdentifier(className)
    ensures LegalIdentifier(r)
  {
    if t == Picklist then className
    else if t == State then assert LegalIdentifier("StateCode"); "StateCode"
    else assert LegalIdentifier("StatusCode"); "StatusCode"
  }

  /** Lines 83-129: the declaration the attribute's type selects, once its
      class name is known; any other type, or none, gives nothing. */
  function Dispatch(a: AttributeMetadata, className: string): (r: Result<Option<Decl>, NormalizeError>)
    requires a.options.Some? && LegalIdentifier(className)
    ensures r.Success? && r.value.Some? ==> WellNamed(r.value.value)
  {
    if a.attributeType in EnumTypes then GenerateEnum(EnumName(a.attributeType.value, className), a)
    else if a.attributeType == Some(Boolean) then Success(Some(BooleanClass(a, className)))
    else Success(None)
  }

  /** Lines 73-129, one iteration: attributes without options are skipped;
      for the others the class name is normalized before the type is
      looked at, so an illegal logical name aborts whatever the type. */
  function PlanAttribute(a: AttributeMetadata): (r: Result<Option<Decl>, NormalizeError>)
    ensures a.options.None? ==> r == Success(None)
    ensures a.options.Some? && !LegalIdentifier(a.logicalName) ==> r == Failure(FallbackError(a.logicalName))
    ensures r.Success? && r.value.Some? ==> WellNamed(r.value.value)
  {
    match a.options
    case None => Success(None)
    case Some(opts) =>
      match NormalizeLabel(a.displayName, a.logicalName)
      case Failure(e) => Failure(e)
      case Success(className) => Dispatch(a, className)
  }

  /** Lines 70-133: the declarations of all attributes, in attribute
      order; the first attribute whose processing throws aborts the file.
      Every declaration comes from an attribute, and every attribute's
      declaration is kept. */
  function GenerateEnums(attrs: seq<AttributeMetadata>): (r: Result<seq<Decl>, NormalizeError>)
    ensures r.Success? <==> forall i :: 0 <= i < |attrs| ==> PlanAttribute(attrs[i]).Success?
    ensures r.Failure? ==> exists i :: 0 <= i < |attrs| && FirstFailure(attrs, PlanAttribute, i) && r.error == PlanAttribute(attrs[i]).error
    ensures r.Success? ==> forall k :: 0 <= k < |r.value| ==> WellNamed(r.value[k])
    ensures r.Success? ==> forall k :: 0 <= k < |r.value| ==>
      exists i :: 0 <= i < |attrs| && PlanAttribute(attrs[i]) == Success(Some(r.value[k]))
    ensures r.Success? ==> forall i :: 0 <= i < |attrs| && PlanAttribute(attrs[i]).Success? && PlanAttribute(attrs[i]).value.Some? ==>
      PlanAttribute(attrs[i]).value.value in r.value
  {
    match MapAll(attrs, PlanAttribute)
    case Failure(e) => Failure(e)
    case Success(plans) =>
      var decls := Present(plans);
      forall k | 0 <= k < |decls|
        ensures WellNamed(decls[k])
        ensures exists i :: 0 <= i < |attrs| && PlanAttribute(attrs[i]) == Success(Some(decls[k]))
      {
        var i :| 0 <= i < |plans| && plans[i] == Some(decls[k]);
        assert PlanAttribute(attrs[i]).value == plans[i];
      }
      forall i | 0 <= i < |attrs| && PlanAttribute(attrs[i]).Success? && PlanAttribute(attrs[i]).value.Some?
        ensures PlanAttribute(attrs[i]).value.value in decls
      {
        PresentKeeps(plans, i);
      }
      Success(decls)
  }

  /** The only ways an attribute aborts the generation: it has options and
      either its logical name is not a legal identifier, or it becomes an
      enum and one of its option values is negative. */
  lemma PlanAttributeFails(a: AttributeMetadata)
    ensures PlanAttribute(a).Failure?
      <==> a.options.Some?
           && (!LegalIdentifier(a.logicalName)
               || (a.attributeType in EnumTypes && exists i :: 0 <= i < |a.options.value| && a.options.value[i].value < 0))
  {
    if a.options.Some? && LegalIdentifier(a.logicalName) {
      var className := NormalizeLabel(a.displayName, a.logicalName).value;
      assert PlanAttribute(a) == Dispatch(a, className);
    }
  }

  /** An attribute produces a declaration exactly when it has options and
      one of the four handled types. */
  lemma PlanAttributeProduces(a: AttributeMetadata)
    requires PlanAttribute(a).Success?
    ensures PlanAttribute(a).value.Some? <==> a.options.Some? && a.attributeType in GeneratedTypes
  {
    if a.options.Some? {
      var className := NormalizeLabel(a.displayName, a.logicalName).value;
      assert PlanAttribute(a) == Dispatch(a, className);
    }
  }

  /** The enum an attribute of an enum type produces is named after the
      normalized display name for a Picklist, and `StateCode` or
      `StatusCode` for State and Status. */
  lemma EnumDeclarationName(a: AttributeMetadata)
    requires a.options.Some? && a.attributeType in EnumTypes
    ensures PlanAttribute(a).Success? ==> LegalIdentifier(a.logicalName)
    ensures PlanAttribute(a).Success? ==> var d := PlanAttribute(a).value;
      && d.Some? && d.value.ConstEnum?
      && d.value.name == match a.attributeType.value
         case Picklist => NormalizeLabel(a.displayName, a.logicalName).value
         case State => "StateCode"
         case _ => "StatusCode"
  {
    if PlanAttribute(a).Success? {
      var className := NormalizeLabel(a.displayName, a.logicalName).value;
      assert PlanAttribute(a) == Dispatch(a, className);
      EnumDispatchName(a, className);
    }
  }

  lemma EnumDispatchName(a: AttributeMetadata, className: string)
    requires a.options.Some? && LegalIdentifier(className) && a.attributeType in EnumTypes
    requires Dispatch(a, className).Success?
    ensures Dispatch(a, className).value.Some? && Dispatch(a, className).value.value.ConstEnum?
    ensures Dispatch(a, className).value.value.name == EnumName(a.attributeType.value, className)
  {
  }

  /** The class a Boolean attribute with options produces is named by the
      Boolean class name rule from the normalized display name. */
  lemma BooleanDeclarationName(a: AttributeMetadata)
    requires a.options.Some? && LegalIdentifier(a.logicalName) && a.attributeType == Some(Boolean)
    ensures var className := NormalizeLabel(a.displayName, a.logicalName).value;
      PlanAttribute(a) == Success(Some(BooleanClass(a, className)))
  {
    var className := NormalizeLabel(a.displayName, a.logicalName).value;
    assert a.attributeType !in EnumTypes;
    assert Dispatch(a, className) == Success(Some(BooleanClass(a, className)));
  }

  /** The dispatch is closed: any other type behaves as a missing type,
      yet still aborts on an illegal logical name because the class name is
      normalized before the type is inspected. */
  lemma OtherTypesSkipped(a: AttributeMetadata)
    requires a.attributeType !in GeneratedTypes
    ensures PlanAttribute(a) == PlanAttribute(a.(attributeType := None))
    ensures PlanAttribute(a)
      == if a.options.Some? && !LegalIdentifier(a.logicalName) then Failure(FallbackError(a.logicalName))
         else Success(None)
  {
    SkippedPlan(a);
    SkippedPlan(a.(attributeType := None));
  }

  lemma SkippedPlan(a: AttributeMetadata)
    requires a.attributeType !in GeneratedTypes
    ensures PlanAttribute(a)
      == if a.options.Some? && !LegalIdentifier(a.logicalName) then Failure(FallbackError(a.logicalName))
         else Success(None)
  {
    if a.options.Some? && LegalIdentifier(a.logicalName) {
      var className := NormalizeLabel(a.displayName, a.logicalName).value;
      assert a.attributeType !in EnumTypes && a.attributeType != Some(Boolean);
      assert Dispatch(a, className) == Success(None);
    }
  }

  /** Generation over a single attribute: its declaration, if any. */
  lemma GenerateEnumsSingle(a: AttributeMetadata)
    ensures GenerateEnums([a])
      == match PlanAttribute(a)
         case Failure(e) => Failure(e)
         case Success(None) => Success([])
         case Success(Some(d)) => Success([d])
  {
    MapAllSingle(a, PlanAttribute);
    match PlanAttribute(a)
    case Failure(_) =>
    case Success(p) => PresentSingle(p);
  }

  /** Generation over concatenated attribute lists concatenates the
      declarations, in order, unless the first part already aborts. */
  lemma GenerateEnumsAppend(xs: seq<AttributeMetadata>, ys: seq<AttributeMetadata>)
    ensures GenerateEnums(xs + ys)
      == match GenerateEnums(xs)
         case Failure(e) => Failure(e)
         case Success(a) =>
           match GenerateEnums(ys)
           case Failure(e) => Failure(e)
           case Success(b) => Success(a + b)
  {
    MapAllAppend(xs, ys, PlanAttribute);
    match MapAll(xs, PlanAttribute)
    case Failure(_) =>
    case Success(p) =>
      match MapAll(ys, PlanAttribute)
      case Failure(_) =>
      case Success(q) => PresentAppend(p, q);
  }

  /** An entity none of whose attributes has options gets an empty enums
      file. */
  lemma NoOptionsNoDecls(attrs: seq<AttributeMetadata>)
    requires forall i :: 0 <= i < |attrs| ==> attrs[i].options.None?
    ensures GenerateEnums(attrs) == Success([])
  {
    var plans := MapAll(attrs, PlanAttribute).value;
    assert forall i :: 0 <= i < |plans| ==> plans[i].None?;
  }
}


=== FILE: rewrite_laws.dfy ===
/** How the rewrite passes of `normalizeLabel` act on concatenations: each
    pass is local, so a label can be rewritten piece by piece.
    Line numbers refer to src/index.ts. */
module RewriteLaws {
  import opened Wrappers
  import opened Chars
  import opened LabelRewrite

  predicate NoDigit(s: string) {
    forall k :: 0 <= k < |s| ==> !IsDigit(s[k])
  }

  predicate AllDigits(s: string) {
    forall k :: 0 <= k < |s| ==> IsDigit(s[k])
  }

  predicate AllSpace(s: string) {
    forall k :: 0 <= k < |s| ==> IsSpace(s[k])
  }

  /** Line 175 copies a prefix without `[` unchanged. */
  lemma {:induction false} ExpandPrefix(a: string, b: string)
    requires forall k :: 0 <= k < |a| ==> a[k] != '['
    ensures ExpandBrackets(a + b) == a + ExpandBrackets(b)
    decreases |a|
  {
    if |a| > 0 {
      var t := a[1..] + b;
      Regroup(a, b);
      ExpandPlain(a[0], t);
      ExpandPrefix(a[1..], b);
      Regroup(a, ExpandBrackets(b));
    } else {
      assert a + b == b;
    }
  }

  /** Splitting off the first character of a concatenation. */
  lemma Regroup(a: string, b: string)
    requires |a| > 0
    ensures a + b == [a[0]] + (a[1..] + b)
  {
  }

  /** Line 185 works piece by piece. */
  lemma {:induction false} RemoveSpacesAppend(a: string, b: string)
    ensures RemoveSpaces(a + b) == RemoveSpaces(a) + RemoveSpaces(b)
    decreases |a|
  {
    if |a| > 0 {
      assert (a + b)[1..] == a[1..] + b;
      RemoveSpacesAppend(a[1..], b);
      if !IsSpace(a[0]) {
        assert [a[0]] + (RemoveSpaces(a[1..]) + RemoveSpaces(b)) == [a[0]] + RemoveSpaces(a[1..]) + RemoveSpaces(b);
      }
    } else {
      assert a + b == b;
    }
  }

  /** Lines 179/180, one step: a character is kept unless it is the sign
      with no word ahead on its line, which is spelled out. */
  lemma SpellCons(c: char, t: string, sign: char, word: string)
    requires !IsWord(sign) && !IsLineTerminator(sign)
    requires |word| > 0 && forall k :: 0 <= k < |word| ==> IsWord(word[k])
    ensures SpellTrailingSign([c] + t, sign, word)
      == (if c == sign && !WordAhead(t) then word else [c]) + SpellTrailingSign(t, sign, word)
  {
    assert ([c] + t)[1..] == t;
  }

  /** Line 183 copies a prefix without digits unchanged: no number starts
      there. */
  lemma {:induction false} JoinAfterPrefix(a: string, b: string)
    requires NoDigit(a)
    ensures JoinAfterNumbers(a + b) == a + JoinAfterNumbers(b)
    decreases |a|
  {
    if |a| > 0 {
      Regroup(a, b);
      JoinAfterPlain(a[0], a[1..] + b);
      JoinAfterPrefix(a[1..], b);
      Regroup(a, JoinAfterNumbers(b));
    } else {
      assert a + b == b;
    }
  }

  /** Line 183 copies a character other than a digit. */
  lemma JoinAfterPlain(c: char, t: string)
    requires !IsDigit(c)
    ensures JoinAfterNumbers([c] + t) == [c] + JoinAfterNumbers(t)
  {
    assert DigitRun([c] + t) == 0;
    assert ([c] + t)[1..] == t;
  }

  /** Line 183 copies a number that is not followed by whitespace: `2nd`
      stays `2nd`. */
  lemma {:induction false} JoinAfterNoGap(d: string, b: string)
    requires AllDigits(d)
    requires |b| > 0 ==> !IsDigit(b[0]) && !IsSpace(b[0])
    ensures JoinAfterNumbers(d + b) == d + JoinAfterNumbers(b)
    decreases |d|
  {
    if |d| > 0 {
      var s := d + b;
      DigitRunOf(d, b);
      assert s[|d|..] == b;
      assert SpaceRun(s[|d|..]) == 0;
      assert NumberGapMatch(s).None?;
      Regroup(d, b);
      JoinAfterNoGap(d[1..], b);
      Regroup(d, JoinAfterNumbers(b));
    } else {
      assert d + b == b;
    }
  }

  /** Line 183 copies a number and the whitespace after it when no word
      character follows the whitespace. */
  lemma {:induction false} JoinAfterNoWord(d: string, sp: string, b: string)
    requires AllDigits(d)
    requires |sp| > 0 && AllSpace(sp)
    requires |b| > 0 ==> !IsWord(b[0]) && !IsSpace(b[0])
    ensures JoinAfterNumbers(d + sp + b) == d + sp + JoinAfterNumbers(b)
    decreases |d|
  {
    if |d| > 0 {
      JoinAfterNoWordStep(d, sp, b);
      JoinAfterNoWord(d[1..], sp, b);
      Regroup3(d, sp, JoinAfterNumbers(b));
    } else {
      assert d + sp + b == sp + b;
      assert NoDigit(sp);
      JoinAfterPrefix(sp, b);
      assert d + sp == sp;
    }
  }

  /** One digit of `JoinAfterNoWord`: no match starts there, so it is
      copied. */
  lemma JoinAfterNoWordStep(d: string, sp: string, b: string)
    requires |d| > 0 && AllDigits(d)
    requires |sp| > 0 && AllSpace(sp)
    requires |b| > 0 ==> !IsWord(b[0]) && !IsSpace(b[0])
    ensures JoinAfterNumbers(d + sp + b) == [d[0]] + JoinAfterNumbers(d[1..] + sp + b)
  {
    Regroup3(d, sp, b);
    NoWordGap(d, sp, b);
    JoinAfterUnmatched(d[0], d[1..] + sp + b);
  }

  /** No match of line 183 starts at a number whose whitespace is not
      followed by a word character. */
  lemma NoWordGap(d: string, sp: string, b: string)
    requires |d| > 0 && AllDigits(d)
    requires |sp| > 0 && AllSpace(sp)
    requires |b| > 0 ==> !IsWord(b[0]) && !IsSpace(b[0])
    ensures NumberGapMatch(d + sp + b).None?
  {
    var s := d + sp + b;
    assert s == d + (sp + b);
    DigitRunOf(d, sp + b);
    assert s[|d|..] == sp + b;
    SpaceRunOf(sp, b);
  }

  /** Where no match of line 183 starts, the first character is copied. */
  lemma JoinAfterUnmatched(c: char, t: string)
    requires NumberGapMatch([c] + t).None?
    ensures JoinAfterNumbers([c] + t) == [c] + JoinAfterNumbers(t)
  {
    assert ([c] + t)[1..] == t;
  }

  /** Splitting off the first character of a three-part concatenation. */
  lemma Regroup3(a: string, b: string, c: string)
    requires |a| > 0
    ensures a + b + c == [a[0]] + (a[1..] + b + c)
  {
  }

  /** Line 183 at a number: the digits, then the whitespace before the
      next word character turned into one `_`. */
  lemma JoinAfterMatch(d: string, sp: string, b: string)
    requires |d| > 0 && AllDigits(d)
    requires |sp| > 0 && AllSpace(sp)
    requires |b| > 0 && IsWord(b[0])
    ensures JoinAfterNumbers(d + sp + b) == d + "_" + JoinAfterNumbers(b)
  {
    var s := d + sp + b;
    GapMatchAt(d, sp, b);
    assert s[..|d|] == d;
    assert s[|d| + |sp|..] == b;
  }

  lemma GapMatchAt(d: string, sp: string, b: string)
    requires |d| > 0 && AllDigits(d)
    requires |sp| > 0 && AllSpace(sp)
    requires |b| > 0 && IsWord(b[0])
    ensures NumberGapMatch(d + sp + b) == Some((|d|, |d| + |sp|))
  {
    var s := d + sp + b;
    assert s == d + (sp + b);
    DigitRunOf(d, sp + b);
    assert s[|d|..] == sp + b;
    SpaceRunOf(sp, b);
  }

  /** The digit run of digits followed by a non-digit. */
  lemma {:induction false} DigitRunOf(d: string, b: string)
    requires AllDigits(d)
    requires |b| > 0 ==> !IsDigit(b[0])
    ensures DigitRun(d + b) == |d|
    decreases |d|
  {
    if |d| > 0 {
      assert (d + b)[1..] == d[1..] + b;
      DigitRunOf(d[1..], b);
    } else {
      assert d + b == b;
    }
  }

  /** The whitespace run of whitespace followed by something else. */
  lemma {:induction false} SpaceRunOf(sp: string, b: string)
    requires AllSpace(sp)
    requires |b| > 0 ==> !IsSpace(b[0])
    ensures SpaceRun(sp + b) == |sp|
    decreases |sp|
  {
    if |sp| > 0 {
      assert (sp + b)[1..] == sp[1..] + b;
      SpaceRunOf(sp[1..], b);
    } else {
      assert sp + b == b;
    }
  }

  /** Line 184 copies a character other than whitespace. */
  lemma JoinBeforePlain(c: char, t: string, afterWord: bool)
    requires !IsSpace(c)
    ensures JoinBeforeNumbers([c] + t, afterWord) == [c] + JoinBeforeNumbers(t, IsWord(c))
  {
    assert SpaceRun([c] + t) == 0;
    assert ([c] + t)[1..] == t;
  }

  /** Line 184 copies a prefix without whitespace unchanged, carrying
      whether its last character is a word character. */
  lemma {:induction false} JoinBeforePrefix(a: string, b: string, afterWord: bool)
    requires |a| > 0 && NoSpace(a)
    ensures JoinBeforeNumbers(a + b, afterWord) == a + JoinBeforeNumbers(b, IsWord(a[|a| - 1]))
    decreases |a|
  {
    Regroup(a, b);
    JoinBeforePlain(a[0], a[1..] + b, afterWord);
    var rest := JoinBeforeNumbers(b, IsWord(a[|a| - 1]));
    if |a| > 1 {
      JoinBeforePrefix(a[1..], b, IsWord(a[0]));
      assert a[1..][|a[1..]| - 1] == a[|a| - 1];
    } else {
      assert a[1..] + b == b;
      assert a[1..] + rest == rest;
    }
    Regroup(a, rest);
  }

  /** Line 184 copies a whitespace run that no number follows, or that
      does not come after a word: `a b 1` keeps the space before `b`. */
  lemma {:induction false} JoinBeforeNoNumber(sp: string, b: string, afterWord: bool)
    requires |sp| > 0 && AllSpace(sp)
    requires |b| > 0 ==> !IsSpace(b[0])
    requires afterWord ==> |b| == 0 || !IsDigit(b[0])
    ensures JoinBeforeNumbers(sp + b, afterWord) == sp + JoinBeforeNumbers(b, false)
    decreases |sp|
  {
    var s := sp + b;
    SpaceRunOf(sp, b);
    assert s[|sp|..] == b;
    assert NumberLeadMatch(s, afterWord).None?;
    assert !IsWord(sp[0]);
    Regroup(sp, b);
    if |sp| > 1 {
      JoinBeforeNoNumber(sp[1..], b, false);
    } else {
      assert sp[1..] + b == b;
    }
    Regroup(sp, JoinBeforeNumbers(b, false));
  }

  /** The match of line 184 after a word: whitespace, then digits. */
  lemma LeadMatchAt(sp: string, d: string, b: string)
    requires |sp| > 0 && AllSpace(sp)
    requires |d| > 0 && AllDigits(d)
    requires |b| > 0 ==> !IsDigit(b[0])
    ensures NumberLeadMatch(sp + d + b, true) == Some((|sp|, |sp| + |d|))
  {
    var s := sp + d + b;
    assert s == sp + (d + b);
    SpaceRunOf(sp, d + b);
    assert s[|sp|..] == d + b;
    DigitRunOf(d, b);
  }

  /** Line 184 after a word: the whitespace before a number turned into one
      `_`, then the digits. */
  lemma JoinBeforeMatch(sp: string, d: string, b: string)
    requires |sp| > 0 && AllSpace(sp)
    requires |d| > 0 && AllDigits(d)
    requires |b| > 0 ==> !IsDigit(b[0])
    ensures JoinBeforeNumbers(sp + d + b, true) == "_" + d + JoinBeforeNumbers(b, true)
  {
    var s := sp + d + b;
    LeadMatchAt(sp, d, b);
    assert s[|sp|..|sp| + |d|] == d;
    assert s[|sp| + |d|..] == b;
  }

  /** Line 184 changes nothing without digits. */
  lemma {:induction false} JoinBeforeNoDigits(s: string, afterWord: bool)
    requires NoDigit(s)
    ensures JoinBeforeNumbers(s, afterWord) == s
    decreases |s|
  {
    if |s| > 0 {
      var k := SpaceRun(s);
      assert NumberLeadMatch(s, afterWord).None? by {
        if 0 < k < |s| { assert !IsDigit(s[k]); }
      }
      JoinBeforeNoDigits(s[1..], IsWord(s[0]));
      Regroup(s, []);
    }
  }

  /** Line 183 changes nothing without digits. */
  lemma JoinAfterNoDigits(s: string)
    requires NoDigit(s)
    ensures JoinAfterNumbers(s) == s
  {
    JoinAfterPrefix(s, []);
    assert s + [] == s;
  }

  /** Line 181 changes nothing when only word characters and whitespace
      are present. */
  lemma BlankFixes(s: string)
    requires WordOrSpace(s)
    ensures BlankSymbols(s) == s
  {
  }

  /** Line 182 changes nothing when every word already starts with a
      character that is not a lower-case letter. */
  lemma CapitalizeFixes(s: string, afterWord: bool)
    requires forall k :: 0 <= k < |s| && WordStart(s, k, afterWord) ==> !IsLower(s[k])
    ensures CapitalizeWords(s, afterWord) == s
  {
  }

  /** Lines 176-180 change nothing when the text starts with a word
      character, ends with one (or a sign), and has no quote or sign. */
  lemma TrimAndSpellKeep(s: string)
    requires |s| > 0 && IsWord(s[0]) && IsWord(s[|s| - 1])
    requires forall k :: 0 <= k < |s| ==> !IsQuote(s[k]) && s[k] != '-' && s[k] != '+'
    ensures SpellTrailingPlus(SpellTrailingMinus(RemoveQuotes(TrimTrailingSymbols(TrimLeadingSymbols(s))))) == s
  {
    assert TrimLeadingSymbols(s) == s;
    assert TrimTrailingSymbols(s) == s;
  }

  /** Line 175 changes nothing without `[`. */
  lemma ExpandNoBracket(s: string)
    requires forall k :: 0 <= k < |s| ==> s[k] != '['
    ensures ExpandBrackets(s) == s
  {
  }

  /** Line 175 on one bracketed span between text without brackets. */
  lemma ExpandOnce(a: string, inner: string, b: string)
    requires forall k :: 0 <= k < |a| ==> a[k] != '['
    requires |inner| > 0 && !IsLineTerminator(inner[0])
    requires forall k :: 1 <= k < |inner| ==> inner[k] != ']' && !IsLineTerminator(inner[k])
    requires forall k :: 0 <= k < |b| ==> b[k] != '['
    ensures ExpandBrackets(a + "[" + inner + "]" + b) == a + "_" + inner + "_" + b
  {
    Regroup5(a, "[", inner, "]", b);
    Regroup5(a, "_", inner, "_", b);
    ExpandPrefix(a, "[" + inner + "]" + b);
    ExpandAtPair(inner, b);
    ExpandNoBracket(b);
  }

  /** Line 175 copies text that holds no `]` up to the end of its line:
      none of its `[` is closed, so `a[b` stays `a[b`. */
  lemma {:induction false} ExpandLine(line: string, b: string)
    requires forall k :: 0 <= k < |line| ==> line[k] != ']' && !IsLineTerminator(line[k])
    requires |b| > 0 ==> IsLineTerminator(b[0])
    ensures ExpandBrackets(line + b) == line + ExpandBrackets(b)
    decreases |line|
  {
    if |line| > 0 {
      ExpandLineStep(line, b);
      ExpandLine(line[1..], b);
      Regroup(line, ExpandBrackets(b));
    } else {
      assert line + b == b;
    }
  }

  /** One character of `ExpandLine`: copied, whether it is `[` or not. */
  lemma ExpandLineStep(line: string, b: string)
    requires |line| > 0
    requires forall k :: 0 <= k < |line| ==> line[k] != ']' && !IsLineTerminator(line[k])
    requires |b| > 0 ==> IsLineTerminator(b[0])
    ensures ExpandBrackets(line + b) == [line[0]] + ExpandBrackets(line[1..] + b)
  {
    var t := line[1..];
    assert line + b == [line[0]] + (t + b);
    if line[0] == '[' {
      ExpandUnmatched(t, b);
    } else {
      ExpandPlain(line[0], t + b);
    }
  }

  lemma Regroup5(a: string, b: string, c: string, d: string, e: string)
    ensures a + b + c + d + e == a + (b + c + d + e)
  {
  }

  /** Line 181 as its pointwise description. */
  lemma BlankPoints(s: string, t: string)
    requires |t| == |s|
    requires forall k :: 0 <= k < |s| ==> t[k] == if IsWord(s[k]) || IsSpace(s[k]) then s[k] else ' '
    ensures BlankSymbols(s) == t
  {
  }

  /** Line 183 on a number followed by whitespace and a last word. */
  lemma JoinAfterOnce(d: string, sp: string, w: string)
    requires |d| > 0 && AllDigits(d)
    requires |sp| > 0 && AllSpace(sp)
    requires |w| > 0 && IsWord(w[0]) && NoSpace(w)
    ensures JoinAfterNumbers(d + sp + w) == d + "_" + w
  {
    JoinAfterMatch(d, sp, w);
  }

  /** Lines 184-185 change nothing without whitespace. */
  lemma NoSpaceStays(s: string, afterWord: bool)
    requires NoSpace(s)
    ensures RemoveSpaces(JoinBeforeNumbers(s, afterWord)) == s
  {
  }

  /** Line 185 on one gap of whitespace. */
  lemma RemoveOneGap(a: string, sp: string, b: string)
    requires NoSpace(a) && AllSpace(sp) && NoSpace(b)
    ensures RemoveSpaces(a + sp + b) == a + b
  {
    RemoveSpacesAppend(a + sp, b);
    RemoveSpacesAppend(a, sp);
    RemoveSpacesOfSpaces(sp);
    assert RemoveSpaces(a) == a;
    assert RemoveSpaces(b) == b;
    assert a + [] == a;
  }

  lemma {:induction false} RemoveSpacesOfSpaces(sp: string)
    requires AllSpace(sp)
    ensures RemoveSpaces(sp) == []
    decreases |sp|
  {
    if |sp| > 0 {
      RemoveSpacesOfSpaces(sp[1..]);
    }
  }
}


=== FILE: seqs.dfy ===
/** Sequence combinators shared by the generator: running an operation that
    may abort over every element, and keeping the declarations that were
    produced. */
module Seqs {
  import opened Wrappers

  /** Applies `f` to every element in order; the first failure aborts the
      whole run, as an exception thrown inside a `for ... of` loop does. */
  function MapAll<A, B, E(==)>(xs: seq<A>, f: A -> Result<B, E>): (r: Result<seq<B>, E>)
    ensures r.Success? <==> forall i :: 0 <= i < |xs| ==> f(xs[i]).Success?
    ensures r.Success? ==> |r.value| == |xs| && forall i :: 0 <= i < |xs| ==> r.value[i] == f(xs[i]).value
    ensures r.Failure? ==> exists i :: 0 <= i < |xs| && FirstFailure(xs, f, i) && r.error == f(xs[i]).error
    decreases |xs|
  {
    if |xs| == 0 then Success([])
    else
      match f(xs[0])
      case Failure(e) => assert FirstFailure(xs, f, 0); Failure(e)
      case Success(y) =>
        match MapAll(xs[1..], f)
        case Failure(e) =>
          var i :| 0 <= i < |xs[1..]| && FirstFailure(xs[1..], f, i) && e == f(xs[1..][i]).error;
          assert FirstFailure(xs, f, i + 1);
          Failure(e)
        case Success(ys) => Success([y] + ys)
  }

  /** `xs[i]` is the first element on which `f` fails. */
  predicate FirstFailure<A, B, E>(xs: seq<A>, f: A -> Result<B, E>, i: nat)
    requires i < |xs|
  {
    f(xs[i]).Failure? && forall j :: 0 <= j < i ==> f(xs[j]).Success?
  }

  /** Running over a concatenation runs over the first part, and only when
      all of it succeeds over the second. */
  lemma {:induction false} MapAllAppend<A, B, E>(xs: seq<A>, ys: seq<A>, f: A -> Result<B, E>)
    ensures MapAll(xs + ys, f)
      == match MapAll(xs, f)
         case Failure(e) => Failure(e)
         case Success(a) =>
           match MapAll(ys, f)
           case Failure(e) => Failure(e)
           case Success(b) => Success(a + b)
    decreases |xs|
  {
    if |xs| == 0 {
      assert xs + ys == ys;
      match MapAll(ys, f)
      case Failure(_) =>
      case Success(b) => assert [] + b == b;
    } else {
      assert (xs + ys)[1..] == xs[1..] + ys;
      assert (xs + ys)[0] == xs[0];
      MapAllAppend(xs[1..], ys, f);
      match f(xs[0])
      case Failure(_) =>
      case Success(y) =>
        match MapAll(xs[1..], f)
        case Failure(_) =>
        case Success(a) =>
          match MapAll(ys, f)
          case Failure(_) =>
          case Success(b) =>
            assert [y] + (a + b) == [y] + a + b;
    }
  }

  /** The present values of `xs`, in order. */
  function Present<T(==)>(xs: seq<Option<T>>): (r: seq<T>)
    ensures |r| <= |xs|
    ensures forall k :: 0 <= k < |r| ==> Some(r[k]) in xs
    ensures (forall i :: 0 <= i < |xs| ==> xs[i].None?) <==> r == []
    decreases |xs|
  {
    if |xs| == 0 then []
    else
      var rest := Present(xs[1..]);
      assert forall k :: 0 <= k < |rest| ==> Some(rest[k]) in xs by {
        forall k | 0 <= k < |rest| ensures Some(rest[k]) in xs {
          var j :| 0 <= j < |xs[1..]| && xs[1..][j] == Some(rest[k]);
          assert xs[j + 1] == Some(rest[k]);
        }
      }
      match xs[0]
      case None => rest
      case Some(v) => [v] + rest
  }

  /** Every present value of `xs` is kept. */
  lemma {:induction false} PresentKeeps<T>(xs: seq<Option<T>>, i: nat)
    requires i < |xs| && xs[i].Some?
    ensures xs[i].value in Present(xs)
    decreases i
  {
    if i > 0 {
      PresentKeeps(xs[1..], i - 1);
    }
  }

  /** Keeping the present values distributes over concatenation. */
  lemma {:induction false} PresentAppend<T>(xs: seq<Option<T>>, ys: seq<Option<T>>)
    ensures Present(xs + ys) == Present(xs) + Present(ys)
    decreases |xs|
  {
    if |xs| == 0 {
      assert xs + ys == ys;
    } else {
      assert (xs + ys)[1..] == xs[1..] + ys;
      PresentAppend(xs[1..], ys);
    }
  }

  /** Running over one element is applying `f` to it. */
  lemma MapAllSingle<A, B, E>(x: A, f: A -> Result<B, E>)
    ensures MapAll([x], f)
      == match f(x)
         case Failure(e) => Failure(e)
         case Success(y) => Success([y])
  {
    assert [x][1..] == [];
    assert MapAll([x][1..], f) == Success([]);
    match f(x)
    case Failure(_) =>
    case Success(y) => assert [y] + [] == [y];
  }

  /** Keeping the present values of a single option. */
  lemma PresentSingle<T>(o: Option<T>)
    ensures Present([o]) == match o case None => [] case Some(v) => [v]
  {
    assert [o][1..] == [];
  }
}

=== FILE: wrappers.dfy ===
/** Optional values and success/failure results, standing in for the
    `null`-able fields and the thrown errors of the generator. */
module Wrappers {

  /** A value that may be absent (`T | null` in the metadata records). */
  datatype Option<+T> = None | Some(value: T) {

    /** The carried value, or `default` when absent (the `x || ""` idiom). */
    function GetOr(default: T): T {
      match this
      case Some(v) => v
      case None => default
    }
  }

  /** The outcome of an operation that may abort with an error. */
  datatype Result<+T, +E> = Success(value: T) | Failure(error: E)
}
